=== FILE: README.md ===
# mpv IPC test client and Lua-to-C string embedding, in Dafny

This project models two small Python programs from the mpv repository.

**The IPC client (`a.py`, class `Mpv`).** The client talks to an mpv process over a socket:

- It numbers its outgoing commands 1, 2, 3, … and keeps one future per pending request. The future is resolved from the response line that carries the matching `request_id`.
- A background reader hands every event line to a snapshot of the registered event handlers, in order.
- Two built-in kinds of handler turn events into futures:
  - `event_received` waits once for a named event;
  - `property_changed` counts the first and the second `property-change` of an observation, then unregisters itself and queues an `unobserve_property` command.

The model has three layers:

- `IpcState` describes the client's bookkeeping as a value with atomic transitions. Under asyncio each step runs without interruption between two `await`s.
- `IpcDispatch` and `IpcProperties` prove what those transitions promise.
- `MpvClient.Mpv` is the class itself, with mutable fields. Each method is proved to move its state exactly as the matching transition does.
  - The step methods also keep the client invariant `Valid()`. These are `Create`, `Command`, `SetProperty`, `FinishCommand`, `EventHandlerEnter`, `EventHandlerExit`, `PropertyChanged`, `EventReceived`, `StartSpawned`, `Close`, `ReadLine` and `ReadLines`.
  - The helpers they call are proved only to match their transitions. These are `AddObserver`, `CancelPending`, `Respond`, `Dispatch`, `CallHandler`, `WaiterHandler`, `ObserverHandler`, `ObserverFirst`, `ObserverSecond` and `ObserverRetire`.

**`TOOLS/lua2string.py`.** This script embeds a Lua chunk into C source:

- `cstr` turns bytes into the body of a C string literal. ASCII letters are kept; every other byte becomes a backslash and its octal value.
- The script writes a `{ .start = …, .len = … }` initialiser.

`CString` models `cstr`. The conversion table is built in an array exactly as the script builds its list. `Lua2String` models the fragment. An independent decoder, which reads C octal escapes greedily, shows that the literal stands for exactly the input bytes and that `.len` counts them.

Three behaviours of `a.py` that the model keeps as written:

- A response whose `request_id` is not in the pending table makes the dictionary lookup raise `KeyError`, and the reader task ends. See `ResponseUnknownId`.
- When the stream ends, only the request futures are cancelled. The futures derived from events (`installed`, `changed`, `received`) are not cancelled: each keeps what it held. See `EndOfStreamCancels`.
- A line that fails to decode ends the reader task with the exception. Nothing is cancelled and the writer is not closed. See `MalformedLineCrashes`.

## Model

| member | source | states |
|---|---|---|
| JsonValue.Truthy | a.py:156 | Python truthiness of a decoded value, the test `if event := data.get('event')` applies |
| JsonValue.IntKey | a.py:107 | the integer a JSON value equals under Python's `==` and dict hashing, with `True == 1` and `False == 0`; strings, lists, objects and `null` equal no integer |
| JsonValue.Get | a.py:162 | `data.get('data', None)`: the field if present, `null` otherwise |
| IpcState.Initial | a.py:24-29 | the state `create` sets up: no request issued, no observation, empty tables and handler list, the writer open and the reader running |
| IpcState.Cancel | a.py:170 | `Future.cancel()`: a pending future becomes cancelled, a completed one is left as it is |
| IpcState.Unobserve | a.py:116 | the arguments of the `('unobserve_property', id)` command a retired observation queues |
| IpcState.Issue | a.py:65-82 | the synchronous part of `command`: the next request id, its pending slot, and its line written (properties in `IssueFresh` and `IssueInv`) |
| IpcState.FinishCommand | a.py:86-87 | the `finally` of `command`: its slot is deleted |
| IpcState.Register | a.py:56 | `event_handlers.append(handler)` |
| IpcState.Unregister | a.py:59 | `event_handlers.remove(handler)` on leaving the `with` block |
| IpcState.ObserveStart | a.py:93-120 | `property_changed` up to its first `await`: the observation registered, then `observe_property` issued with its id and the property name |
| IpcState.ObserveRegister | a.py:94-118 | the next observation id, `first = True`, the futures `installed` and `changed`, and the handler appended |
| IpcState.WaitEvent | a.py:127-140 | `event_received`: a new pending future and its handler appended |
| IpcState.StartSpawned | a.py:116 | the oldest task created by an observation handler starts and issues its command |
| IpcState.Close | a.py:89-91 | `close()` closes the writer and nothing else |
| IpcState.IsEvent | a.py:156 | a line is an event exactly when it has a truthy `event` field |
| IpcState.CancelAll | a.py:169-170 | every pending slot is cancelled, every completed one keeps its outcome, and no slot is added or dropped |
| IpcState.ReadLine | a.py:147-164 | one iteration of the reader loop: end of stream, an undecodable line, a non-object, an event, or a response (properties in `ReadLineInv` and the line-level lemmas) |
| IpcState.ReadLines | a.py:146-170 | the reader loop over the lines delivered, until the stream ends or a line raises (properties in `ReadLinesInv` and `ReadLinesEnds`) |
| IpcState.Dispatch | a.py:156-158 | the handlers of the snapshot called in order until one raises (properties in the `IpcDispatch` lemmas) |
| IpcState.RemoveFirst | a.py:59 | `list.remove` removes exactly one occurrence when the element is present, as a multiset difference, and changes nothing otherwise |
| IpcState.Respond | a.py:159-164 | a response line changes only the pending table and the reader; it never adds or drops a slot, never overwrites a completed future, and either leaves the reader alone or ends it |
| IpcState.CallHandler | a.py:156-158 | calling a handler records exactly that call and never touches the request ids, the pending table, the written lines, the observation counter or the writer |
| IpcState.CallWaiter | a.py:133-136 | the `event_received` closure touches only the handler list, from which it removes itself, its own future, which it resolves with the event, and the reader, which it ends only by raising (`ValueError` from `remove` or `InvalidStateError`); any other event leaves the whole state unchanged |
| IpcState.CallObserver | a.py:103-116 | the `property_changed` closure changes only its own `first` cell, its `installed` future (to `None`), its `changed` future (to the event), the handler list (it removes itself, and exactly then queues one `unobserve_property` with its id and keeps the reader running), the queued commands, and the reader (only by raising `KeyError('id')`, `InvalidStateError` or `ValueError` from `remove`); on an event that is not its change, it either does nothing or raises `KeyError('id')` |
| IpcDispatch.CallsOf | a.py:157-158 | a complete pass makes one call for each snapshot entry, in snapshot order |
| IpcDispatch.RemoveFirstMembers | a.py:59 | `list.remove` keeps every other entry and adds none |
| IpcDispatch.DispatchInv | a.py:156-158 | a whole event pass over the snapshot keeps the client invariant |
| IpcDispatch.DispatchFrame | a.py:156-158 | an event pass leaves the request side alone, only ever removes handlers, and keeps every handler the event does not concern |
| IpcDispatch.DispatchCalls | a.py:156-158 | the handlers called are a prefix of the snapshot taken before the first call, in order; it is all of them unless one raised |
| IpcDispatch.StepReader | a.py:107 | under the invariant, a single handler call raises only when an observation handler reads `data['id']` of a property change that has no `id` |
| IpcDispatch.DispatchRaises | a.py:107 | a pass ends the reader exactly when the event is a `property-change` without `id` and the snapshot holds an observation handler |
| IpcDispatch.DispatchReceivedFrame | a.py:133-136 | an `event_received` future changes only if its own waiter is in the snapshot and the event has the awaited name |
| IpcDispatch.DispatchWaiterFires | a.py:133-136 | while the reader survives the pass, a waiter whose event arrives resolves its future with the event and leaves the handler list |
| IpcDispatch.DispatchObservationFrame | a.py:107-116 | the cells of an observation change only when its handler is in the snapshot and meets its own property change |
| IpcDispatch.DispatchSpawnedFrame | a.py:116 | no `unobserve_property` is queued unless some observation handler meets its second change |
| IpcDispatch.DispatchObserverInstalls | a.py:108-111 | on the first matching change, `first` becomes false, `installed` resolves to `None`, `changed` stays, and the handler stays registered |
| IpcDispatch.DispatchObserverChanges | a.py:113-116 | on the second matching change, `changed` resolves with the event, `installed` stays, the handler leaves, and exactly one `unobserve_property` with its id is queued |
| IpcProperties.InitialInv | a.py:24-29 | the state `create` sets up satisfies the client invariant |
| IpcProperties.IssueFresh | a.py:65-82 | the id a command takes is fresh: it is not pending and has never been written; the command adds exactly one pending slot and one written line |
| IpcProperties.IssueInv | a.py:64-82 | issuing a command keeps the invariant: the written request ids are 1..n, in order |
| IpcProperties.FinishCommandInv | a.py:85-87 | deleting a slot in `finally` keeps the invariant |
| IpcProperties.RegisterInv | a.py:56 | entering `event_handler` keeps the invariant |
| IpcProperties.RemoveKeepsOwners | a.py:59 | removing an entry keeps the rule that no two handlers own the same future |
| IpcProperties.UnregisterInv | a.py:59 | leaving `event_handler` keeps the invariant |
| IpcProperties.ObserveRegisterInv | a.py:94-118 | a new observation (its id, the two futures, `first` and the handler) keeps the invariant |
| IpcProperties.ObserveStartInv | a.py:93-120 | `property_changed` up to its command keeps the invariant |
| IpcProperties.WaitEventInv | a.py:127-140 | `event_received` keeps the invariant |
| IpcProperties.StartSpawnedInv | a.py:116 | starting a queued `unobserve_property` task keeps the invariant |
| IpcProperties.CloseInv | a.py:89-91 | `close` keeps the invariant |
| IpcProperties.RespondInv | a.py:159-164 | handling a response keeps the invariant |
| IpcProperties.ReadLineInv | a.py:147-170 | one iteration of the reader loop keeps the invariant |
| IpcProperties.ReadLinesInv | a.py:146-170 | the reader loop over any sequence of lines keeps the invariant |
| IpcProperties.ReadLinesEnds | a.py:147-151 | once the stream ends the reader is gone; a stopped or crashed reader reads nothing more and never runs again |
| IpcProperties.EndOfStreamCancels | a.py:150-170 | end of stream closes the writer, stops the reader, cancels exactly the requests still pending, keeps completed outcomes, and leaves the event-derived futures as they are |
| IpcProperties.MalformedLineCrashes | a.py:153-156 | a line that is not JSON, or not an object, ends the reader and changes nothing else |
| IpcProperties.ResponseSettles | a.py:159-164 | a response for a pending request resolves its slot, with `data` (or `None`) on `success` and with the error text otherwise, and changes nothing else |
| IpcProperties.ResponseUnknownId | a.py:160 | a response naming no pending request ends the reader with `KeyError` and resolves nothing |
| IpcProperties.ResponseTwice | a.py:161-164 | a second response for a completed request ends the reader, and the first outcome stands |
| IpcProperties.EventOutcome | a.py:156-158 | an event never resolves or removes a request; it calls every handler of the snapshot unless one raises; it ends the reader exactly on a property change without `id` while an observation handler is registered |
| IpcProperties.WaiterFires | a.py:133-136 | while the reader survives the pass, the awaited event resolves the `event_received` future with the event and unregisters its handler |
| IpcProperties.WaiterFiresUnlessCrash | a.py:133-136 | unless the event is a `property-change` without `id` and an observation handler is registered, the reader survives and the awaited event resolves the `event_received` future and unregisters its handler |
| IpcProperties.WaiterIgnores | a.py:133-134 | any other event leaves the waiter registered and its future pending |
| IpcProperties.ObserverInstalls | a.py:107-111 | the first property change of an observation resolves `installed` and keeps the handler for the second |
| IpcProperties.ObserverChanges | a.py:113-116 | the second property change resolves `changed` with the event, unregisters the handler and queues one `unobserve_property` |
| IpcProperties.ObserverIgnores | a.py:107 | any other event leaves an observation's cells and registration as they were |
| IpcProperties.NextInv | a.py:53-170 | every step the event loop can schedule (commands, their resumption, handler registration, observations, waits, queued tasks, close, inbound lines) keeps the invariant |
| IpcProperties.PendingLifecycle | a.py:79-87 | a pending slot is removed only by its own command resuming; a removed id is never pending again |
| IpcProperties.SlotFreedAfterClose | a.py:83-87 | once the writer is closed, a command can leave through its `finally` even while its future is pending, because `drain()` raises; its slot is then deleted |
| IpcProperties.CallerPending | a.py:64-140 | the caller-side steps keep every other pending slot and never re-create a used id |
| IpcProperties.EventKeepsSettled | a.py:156-158 | an event pass never changes a completed future |
| IpcProperties.ReadLineKeepsSettled | a.py:147-170 | no inbound line changes a completed future |
| IpcProperties.CallerKeepsSettled | a.py:64-140 | given fresh ids, the caller steps never change a completed future |
| IpcProperties.NextKeepsSettled | a.py:53-170 | no step changes a completed future: every future is resolved at most once |
| MpvClient.Mpv.Create | a.py:22-51 | `create` sets both counters to zero, empties the tables, starts the reader, and establishes the invariant |
| MpvClient.Mpv.Command | a.py:64-82 | `command` takes the next request id, which was not in use, registers its pending slot, writes its line last, and keeps the invariant |
| MpvClient.Mpv.SetProperty | a.py:61-62 | `set_property` is the `set_property` command |
| MpvClient.Mpv.FinishCommand | a.py:83-87 | a command leaving through `finally` deletes its slot; after completion it returns the slot's outcome, and with the writer closed it may leave while the slot is still pending |
| MpvClient.Mpv.EventHandlerEnter | a.py:56 | entering `event_handler` appends the handler |
| MpvClient.Mpv.EventHandlerExit | a.py:59 | leaving `event_handler` removes the first occurrence, and it succeeds exactly when the handler is registered |
| MpvClient.Mpv.PropertyChanged | a.py:93-120 | `property_changed` takes the next observation id and the next request id, registers its handler and issues `observe_property` |
| MpvClient.Mpv.AddObserver | a.py:94-118 | creates an observation's id, `first` cell and two futures, and registers its handler |
| MpvClient.Mpv.EventReceived | a.py:127-140 | `event_received` returns a new pending future and registers its handler |
| MpvClient.Mpv.StartSpawned | a.py:116 | the oldest queued `unobserve_property` task issues its command |
| MpvClient.Mpv.Close | a.py:89-91 | `close` closes the writer |
| MpvClient.Mpv.ReadLines | a.py:146-170 | the reader loop runs until the stream ends or a line raises, with the effect of the line-by-line transitions, and keeps the invariant |
| MpvClient.Mpv.ReadLine | a.py:147-170 | one iteration of the reader loop, as the `ReadLine` transition |
| MpvClient.Mpv.CancelPending | a.py:169-170 | the loop over `pending_requests.values()` cancels every pending slot and leaves completed ones alone |
| MpvClient.Mpv.Respond | a.py:159-164 | the response branch, as the `Respond` transition |
| MpvClient.Mpv.Dispatch | a.py:156-158 | the loop over `list(self.event_handlers)` calls the snapshot in order until a handler raises |
| MpvClient.Mpv.CallHandler | a.py:157-158 | one handler invocation |
| MpvClient.Mpv.WaiterHandler | a.py:133-136 | the `event_received` closure |
| MpvClient.Mpv.ObserverHandler | a.py:103-116 | the `property_changed` closure |
| MpvClient.Mpv.ObserverFirst | a.py:108-111 | the first matching change: `first = False`, then `installed.set_result(None)` |
| MpvClient.Mpv.ObserverSecond | a.py:113 | a later matching change: `changed.set_result` fails if `changed` is already done |
| MpvClient.Mpv.ObserverRetire | a.py:113-116 | `changed` resolves with the event, the handler removes itself, and `unobserve_property` is queued |
| CString.Octal | TOOLS/lua2string.py:26 | `"%o"` gives at least one digit, only octal digits, and no leading zero |
| CString.OctalRoundTrip | TOOLS/lua2string.py:26 | C reads the `%o` digits back as the same number |
| CString.OctalLength | TOOLS/lua2string.py:26 | a byte takes 1 octal digit below 8, 2 below 64, and 3 otherwise |
| CString.AsciiLetters | TOOLS/lua2string.py:28 | `string.ascii_letters`: the 26 lowercase letters, then the 26 uppercase |
| CString.ConvTable | TOOLS/lua2string.py:26-29 | the finished `conv` list: 256 entries, entry `b` being `Conv(b)` |
| CString.Conv | TOOLS/lua2string.py:26-29 | the table entry for one byte (its properties in `ConvEntry`) |
| CString.ConvEntry | TOOLS/lua2string.py:26-29 | a table entry is the byte itself exactly when the byte is an ASCII letter; otherwise it is a backslash and one to three octal digits, with no leading zero, worth the byte |
| CString.AsciiLettersAreLetters | TOOLS/lua2string.py:28 | `string.ascii_letters` holds 52 characters, which are exactly the letter bytes |
| CString.BuildConv | TOOLS/lua2string.py:26-29 | the table built by the loop overwriting letters is the conversion table |
| CString.Join | TOOLS/lua2string.py:31 | `"".join(conv[c] for c in s)` over any 256-entry table |
| CString.Interior | TOOLS/lua2string.py:31 | the join over the conversion table (its properties in `InteriorAppend`, `InteriorAlphabet`, `LiteralLength` and `DecodeInterior`) |
| CString.CLiteral | TOOLS/lua2string.py:31 | the literal starts and ends with a double quote, and what lies between is the interior |
| CString.Cstr | TOOLS/lua2string.py:25-31 | `cstr` joins the table entries of the bytes, in order, between quotes |
| CString.InteriorAppend | TOOLS/lua2string.py:31 | the encoding of a concatenation is the concatenation of the encodings: bytes are converted one by one, in order |
| CString.InteriorAlphabet | TOOLS/lua2string.py:26-31 | the interior holds only letters, backslashes and octal digits, so never a quote or a newline |
| CString.LiteralLength | TOOLS/lua2string.py:26-31 | the literal is 2 characters plus 1 per letter plus 1 + (octal digit count) per other byte |
| CString.OctalRun | TOOLS/lua2string.py:26 | an octal escape extends over at most three octal digits and stops at the first other character |
| CString.InteriorStart | TOOLS/lua2string.py:26-31 | an encoding never begins with an octal digit, so it cannot extend a preceding escape |
| CString.DecodeEscape | TOOLS/lua2string.py:26 | C decoding of an escaped byte followed by more encoded bytes yields that byte, then the rest |
| CString.DecodeLetter | TOOLS/lua2string.py:28-29 | C decoding of a letter followed by more encoded bytes yields that byte, then the rest |
| CString.DecodeInterior | TOOLS/lua2string.py:25-31 | round trip: C decoding of the interior gives the input bytes back exactly |
| Lua2String.Decimal | TOOLS/lua2string.py:76 | the decimal rendering is non-empty and all digits |
| Lua2String.DecimalRoundTrip | TOOLS/lua2string.py:76 | the decimal rendering reads back as the same number |
| Lua2String.Fragment | TOOLS/lua2string.py:72-79 | the fragment begins with `{` and the `.start =` line, and ends with `,`, a newline, `}` and a newline |
| Lua2String.WriteFragment | TOOLS/lua2string.py:71-79 | the text written is the fragment, with the literal produced by `cstr` |
| Lua2String.QuoteAt | TOOLS/lua2string.py:75 | finds the first double quote, so the closing quote of `.start` |
| Lua2String.QuoteAtFirst | TOOLS/lua2string.py:75 | a literal body without quotes ends at the quote that follows it |
| Lua2String.ParseLenOf | TOOLS/lua2string.py:76 | the `.len` field reads back as the length written |
| Lua2String.ParseFieldsOf | TOOLS/lua2string.py:75-76 | a quote-free body that decodes to some bytes, followed by the `.len` of those bytes, reads back as those bytes |
| Lua2String.FragmentRoundTrip | TOOLS/lua2string.py:72-79 | the fragment reads back as the chunk; the bytes `.start` stands for are exactly as many as `.len` says |

## Left out

- Sockets, the mpv subprocess, JSON encoding of outgoing lines, `print` tracing and `__repr__` are left out. Lines written are recorded as `Request` values. Command arguments are JSON values, so `json.dumps` never fails in the model. In `a.py` a command whose arguments cannot be encoded has already taken its request id and writes no line; the model leaves that case out, so the claim that the written ids are 1..n is about encodable arguments. Inbound lines arrive as already-decoded `Line` values (end of stream, undecodable, or a JSON value).
- JSON numbers are integers only. Floats are not modelled. Python's `True == 1` is modelled when a JSON value is compared with an id.
- asyncio suspension is modelled as separate atomic steps, the `Step` type. Each caller coroutine runs to its next `await`, and the resumption of `command` is its own step. Tasks created with `loop.create_task` start later in FIFO order. The event loop's real scheduling choices are any order of enabled steps.
- The `property_changed` coroutine after its command returns (`await installed`, then returning `changed`) is left out. It only reads futures the model already tracks.
- User handlers passed to `event_handler` are identified by a number. Their side effects are not modelled: they never raise and change nothing but the call record.
- `closed()` (waiting for the writer and the process) is left out: it only awaits external I/O.
- The model keeps accepting inbound lines after `close()`. In asyncio `writer.close()` closes the whole transport, so the reader would soon reach end of stream. Closing only sets `writerClosed` in the model, and a `LineStep` stays enabled until the model's own end of stream. This adds behaviours and removes none, so properties proved over all steps still hold of `a.py`.
- What the transport does with a line written after `close()` is not modelled. `a.py` does not check for it, and the model records the line like any other.
- MpvClient.Mpv.FinishCommand: once the writer is closed, a command whose slot is still pending may leave at any time. In `a.py` only a command whose `drain()` comes after the close raises; one already waiting on its future keeps waiting. The model does not record which commands have passed `drain()`, so it allows more ways to leave than `a.py` has. Every property proved over all steps still holds of `a.py`.
- The `mpv` async context manager and `main` in `a.py` are left out. They only open and close a session and run one scenario; the steps they use are modelled.
- TOOLS/lua2string.c is not part of this model.
- In `TOOLS/lua2string.py`, argument parsing and the `luac` subprocess are left out: the chunk is a parameter. So is the file output: the fragment is returned as text.
- The C decoder accepts only what `cstr` emits: plain characters and octal escapes. Other C escapes such as `\n` and `\x41` are rejected, not decoded.
- MpvClient.Mpv.CancelPending: it visits ids in ascending order. That is the dictionary's insertion order, and the invariant keeps every pending id between 1 and the last id issued. Python's own iteration order is not modelled beyond that.

=== FILE: cstr.dfy ===
/**
  `cstr` of TOOLS/lua2string.py: a byte string rendered as the body of a C
  string literal.  ASCII letters stand for themselves; every other byte is
  written as a backslash and its value in octal without leading zeros.
  Since letters are never octal digits and digits are always escaped, an
  escape is never followed by an octal digit, so C's greedy octal-escape
  decoding gives the bytes back.
 */
module CString {
  import opened Wrappers

  type Byte = b: int | 0 <= b < 256

  /** `string.ascii_letters`: the lowercase letters, then the uppercase. */
  const AsciiLetters: string := seq(26, i requires 0 <= i < 26 => (97 + i) as char)
                              + seq(26, i requires 0 <= i < 26 => (65 + i) as char)

  predicate IsLetter(b: int) {
    65 <= b <= 90 || 97 <= b <= 122
  }

  predicate IsOctalDigit(ch: char) {
    '0' <= ch <= '7'
  }

  function DigitChar(d: nat): (ch: char)
    requires d < 8
    ensures IsOctalDigit(ch) && DigitValue(ch) == d
  {
    ('0' as int + d) as char
  }

  // ---------------------------------------------------------------- octal

  /** `"%o" % n`: base 8, no leading zeros, `0` for zero. */
  function Octal(n: nat): (r: string)
    ensures 1 <= |r|
    ensures forall i :: 0 <= i < |r| ==> IsOctalDigit(r[i])
    ensures n >= 8 ==> r[0] != '0'
    decreases n
  {
    if n < 8 then [DigitChar(n)] else Octal(n / 8) + [DigitChar(n % 8)]
  }

  function DigitValue(ch: char): nat
    requires IsOctalDigit(ch)
  {
    ch as int - '0' as int
  }

  /** The value of a run of octal digits, as a C compiler reads it. */
  function OctalValue(t: string): nat
    requires forall i :: 0 <= i < |t| ==> IsOctalDigit(t[i])
    decreases |t|
  {
    if t == [] then 0 else 8 * OctalValue(t[..|t| - 1]) + DigitValue(t[|t| - 1])
  }

  /** The number of octal digits of a byte value. */
  function OctalWidth(b: Byte): nat {
    if b < 8 then 1 else if b < 64 then 2 else 3
  }

  /** `"%o"` is read back by C as the same number, in one to three digits. */
  lemma {:induction false} OctalRoundTrip(n: nat)
    ensures OctalValue(Octal(n)) == n
    decreases n
  {
    if n >= 8 {
      OctalRoundTrip(n / 8);
      var r := Octal(n);
      assert r[..|r| - 1] == Octal(n / 8);
    }
  }

  lemma OctalLength(b: Byte)
    ensures |Octal(b)| == OctalWidth(b)
  {
    if b >= 8 {
      assert |Octal(b)| == |Octal(b / 8)| + 1;
      if b >= 64 {
        assert |Octal(b / 8)| == |Octal(b / 64)| + 1;
      }
    }
  }

  // ---------------------------------------------------------------- the conversion table

  /** Entry `b` of the table `conv`. */
  function Conv(b: Byte): string {
    if IsLetter(b) then [b as char] else "\\" + Octal(b)
  }

  /** A letter stands for itself; any other byte becomes a backslash and one
      to three octal digits without a leading zero, read back by C as the
      byte. */
  lemma ConvEntry(b: Byte)
    ensures IsLetter(b) <==> Conv(b) == [b as char]
    ensures !IsLetter(b) ==>
      var d := Conv(b)[1..];
      Conv(b)[0] == '\\' && 1 <= |d| <= 3 && (|d| > 1 ==> d[0] != '0') &&
      (forall i :: 0 <= i < |d| ==> IsOctalDigit(d[i])) && OctalValue(d) == b
  {
    if !IsLetter(b) {
      OctalLength(b);
      OctalRoundTrip(b);
      assert Conv(b)[1..] == Octal(b);
    }
  }

  function ConvTable(): (t: seq<string>)
    ensures |t| == 256 && forall b :: 0 <= b < 256 ==> t[b] == Conv(b)
  {
    seq(256, b requires 0 <= b < 256 => Conv(b))
  }

  /** The characters of `string.ascii_letters` are exactly the letter bytes. */
  lemma AsciiLettersAreLetters()
    ensures |AsciiLetters| == 52
    ensures forall i :: 0 <= i < |AsciiLetters| ==> IsLetter(AsciiLetters[i] as int)
    ensures forall b :: 0 <= b < 256 && IsLetter(b) ==> b as char in AsciiLetters
  {
    forall b | 0 <= b < 256 && IsLetter(b)
      ensures b as char in AsciiLetters
    {
      if b >= 97 {
        assert AsciiLetters[b - 97] == b as char;
      } else {
        assert AsciiLetters[26 + b - 65] == b as char;
      }
    }
  }

  /** Building `conv`: every entry `"\\%o" % c`, then each ASCII letter
      overwritten with itself. */
  method BuildConv() returns (conv: array<string>)
    ensures fresh(conv)
    ensures conv[..] == ConvTable()
  {
    conv := new string[256](c => "\\" + Octal(c));
    AsciiLettersAreLetters();
    for i := 0 to |AsciiLetters|
      invariant conv.Length == 256
      invariant forall b :: 0 <= b < 256 ==>
        conv[b] == if b as char in AsciiLetters[..i] then [b as char] else "\\" + Octal(b)
    {
      var ch := AsciiLetters[i];
      assert AsciiLetters[..i + 1] == AsciiLetters[..i] + [ch];
      conv[ch as int] := [ch];
    }
    assert AsciiLetters[..|AsciiLetters|] == AsciiLetters;
    assert forall b :: 0 <= b < 256 ==> conv[b] == Conv(b);
  }

  // ---------------------------------------------------------------- the literal

  /** `"".join(table[c] for c in s)`. */
  function Join(table: seq<string>, s: seq<Byte>): string
    requires |table| == 256
    decreases |s|
  {
    if s == [] then "" else table[s[0]] + Join(table, s[1..])
  }

  function Interior(s: seq<Byte>): string {
    Join(ConvTable(), s)
  }

  /** The value of `cstr(s)`. */
  function CLiteral(s: seq<Byte>): (r: string)
    ensures |r| >= 2 && r[0] == '"' && r[|r| - 1] == '"'
    ensures r[1..|r| - 1] == Interior(s)
  {
    "\"" + Interior(s) + "\""
  }

  method Cstr(s: seq<Byte>) returns (r: string)
    ensures r == CLiteral(s)
  {
    var conv := BuildConv();
    r := "\"" + Join(conv[..], s) + "\"";
  }

  // ---------------------------------------------------------------- properties

  /** The interior is the conversions of the bytes, concatenated in order. */
  lemma {:induction false} InteriorAppend(a: seq<Byte>, b: seq<Byte>)
    ensures Interior(a + b) == Interior(a) + Interior(b)
    decreases |a|
  {
    if a == [] {
      assert a + b == b;
    } else {
      assert (a + b)[0] == a[0];
      assert (a + b)[1..] == a[1..] + b;
      InteriorAppend(a[1..], b);
      assert Interior(a + b) == Conv(a[0]) + Interior(a[1..] + b);
    }
  }

  /** The characters of the interior: letters, backslash and octal digits. */
  predicate InAlphabet(ch: char) {
    IsLetter(ch as int) || ch == '\\' || IsOctalDigit(ch)
  }

  lemma {:induction false} InteriorAlphabet(s: seq<Byte>)
    ensures forall i :: 0 <= i < |Interior(s)| ==> InAlphabet(Interior(s)[i])
    ensures '"' !in Interior(s) && '\n' !in Interior(s)
    decreases |s|
  {
    if s != [] {
      InteriorAlphabet(s[1..]);
      var head := Conv(s[0]);
      assert forall i :: 0 <= i < |head| ==> InAlphabet(head[i]);
      assert Interior(s) == head + Interior(s[1..]);
    }
  }

  /** Characters each byte costs: one for a letter, a backslash and its
      octal digits otherwise. */
  function Cost(b: Byte): nat {
    if IsLetter(b) then 1 else 1 + OctalWidth(b)
  }

  function TotalCost(s: seq<Byte>): nat
    decreases |s|
  {
    if s == [] then 0 else Cost(s[0]) + TotalCost(s[1..])
  }

  lemma {:induction false} LiteralLength(s: seq<Byte>)
    ensures |CLiteral(s)| == 2 + TotalCost(s)
    decreases |s|
  {
    if s != [] {
      LiteralLength(s[1..]);
      OctalLength(s[0]);
      assert Interior(s) == Conv(s[0]) + Interior(s[1..]);
    }
  }

  // ---------------------------------------------------------------- reading the literal back

  /** The number of octal digits at the start of `t`, at most three: C reads
      an octal escape greedily up to three digits. */
  function OctalRun(t: string): (n: nat)
    ensures n <= 3 && n <= |t|
    ensures forall i :: 0 <= i < n ==> IsOctalDigit(t[i])
    ensures n < 3 && n < |t| ==> !IsOctalDigit(t[n])
  {
    if |t| >= 1 && IsOctalDigit(t[0]) then
      if |t| >= 2 && IsOctalDigit(t[1]) then
        if |t| >= 3 && IsOctalDigit(t[2]) then 3 else 2
      else 1
    else 0
  }

  /** C's reading of a string literal body restricted to what `cstr` can
      emit: plain characters and octal escapes.  A raw quote or newline, any
      other escape, a character outside one byte, or an escape above 255 is
      rejected. */
  function Decode(t: string): Option<seq<Byte>>
    decreases |t|
  {
    if t == [] then Some([])
    else if t[0] == '\\' then
      var n := OctalRun(t[1..]);
      if n == 0 then None
      else
        var v := OctalValue(t[1..1 + n]);
        if v >= 256 then None
        else match Decode(t[1 + n..])
          case None => None
          case Some(rest) => Some([v as Byte] + rest)
    else if t[0] == '"' || t[0] == '\n' || t[0] as int >= 256 then None
    else match Decode(t[1..])
      case None => None
      case Some(rest) => Some([t[0] as int as Byte] + rest)
  }

  /** The interior of a non-empty input starts with a letter or a backslash,
      never with an octal digit. */
  lemma InteriorStart(s: seq<Byte>)
    requires s != []
    ensures |Interior(s)| > 0 && !IsOctalDigit(Interior(s)[0])
  {
    assert Interior(s) == Conv(s[0]) + Interior(s[1..]);
  }

  /** Decoding an escaped byte followed by the rest of an interior. */
  lemma DecodeEscape(b: Byte, rest: seq<Byte>)
    requires !IsLetter(b)
    ensures Decode(Conv(b) + Interior(rest)) == match Decode(Interior(rest))
      case None => None
      case Some(r) => Some([b] + r)
  {
    var tail := Interior(rest);
    var digits := Octal(b);
    var t := "\\" + digits + tail;
    OctalLength(b);
    OctalRoundTrip(b);
    assert t[1..] == digits + tail;
    if rest != [] {
      InteriorStart(rest);
    }
    assert OctalRun(t[1..]) == |digits|;
    assert t[1..1 + |digits|] == digits;
    assert t[1 + |digits|..] == tail;
  }

  /** Decoding a letter followed by the rest of an interior. */
  lemma DecodeLetter(b: Byte, rest: seq<Byte>)
    requires IsLetter(b)
    ensures Decode(Conv(b) + Interior(rest)) == match Decode(Interior(rest))
      case None => None
      case Some(r) => Some([b] + r)
  {
    var t := Conv(b) + Interior(rest);
    assert t[1..] == Interior(rest);
  }

  /** Round trip: C decoding of the interior gives the input bytes back. */
  lemma {:induction false} DecodeInterior(s: seq<Byte>)
    ensures Decode(Interior(s)) == Some(s)
    decreases |s|
  {
    if s != [] {
      DecodeInterior(s[1..]);
      if IsLetter(s[0]) {
        DecodeLetter(s[0], s[1..]);
      } else {
        DecodeEscape(s[0], s[1..]);
      }
      assert Interior(s) == Conv(s[0]) + Interior(s[1..]);
      assert [s[0]] + s[1..] == s;
    }
  }
}

=== FILE: ipc_dispatch.dfy ===
/**
  What one pass of the event branch of `_read_lines` does: every handler of
  the snapshot `list(self.event_handlers)` is called in order, each owned
  future is touched only by the handler that owns it, a waiter fires once and
  leaves, an observer counts two property-change events.
 */
module IpcDispatch {
  import opened Wrappers
  import opened JsonValue
  import opened IpcState

  /** The invocations one complete pass makes. */
  function CallsOf(snapshot: seq<Handler>, data: map<string, Json>): (r: seq<Call>)
    ensures |r| == |snapshot|
    ensures forall i :: 0 <= i < |r| ==> r[i] == Call(snapshot[i], data)
  {
    if snapshot == [] then [] else [Call(snapshot[0], data)] + CallsOf(snapshot[1..], data)
  }

  /** `data` is a property-change event for observation `id`. */
  predicate IsChangeOf(data: map<string, Json>, id: nat) {
    && "event" in data && data["event"] == JStr("property-change")
    && "id" in data && IntKey(data["id"]) == Some(id)
  }

  /** The one way a handler raises on an event under the invariant: an
      observation handler reading `data['id']` of a property-change event
      that has no `id`. */
  predicate LacksId(data: map<string, Json>) {
    "event" in data && data["event"] == JStr("property-change") && "id" !in data
  }

  /** A handler that the event will not make remove itself. */
  predicate Stays(h: Handler, data: map<string, Json>)
    requires "event" in data
  {
    match h
    case Custom(_) => true
    case Waiter(_, name) => data["event"] != JStr(name)
    case Observer(id) => !IsChangeOf(data, id)
  }

  /** Midway through a pass: the invariant holds, and the owned handlers
      still to be called are still registered and own distinct futures. */
  ghost predicate PassInv(c: Client, rest: seq<Handler>) {
    && Inv(c)
    && Owners(rest)
    && (forall h :: h in rest && !h.Custom? ==> h in c.handlers)
  }

  lemma PassStart(c: Client)
    requires Inv(c)
    ensures PassInv(c, c.handlers)
  {
  }

  /** `list.remove` keeps every other entry and adds none. */
  lemma RemoveFirstMembers(s: seq<Handler>, h: Handler)
    ensures forall x :: x in RemoveFirst(s, h) ==> x in s
    ensures forall x :: x in s && x != h ==> x in RemoveFirst(s, h)
  {
    var r := RemoveFirst(s, h);
    if h in s {
      forall x | x in r
        ensures x in s
      {
        assert x in multiset(r);
      }
      forall x | x in s && x != h
        ensures x in r
      {
        assert x in multiset(s);
      }
    }
  }

  /** After `list.remove`, entry `m` is the entry that was at `Orig(m, i)`. */
  lemma RemoveShift(hs: seq<Handler>, h: Handler)
    requires h in hs
    ensures var i := IndexOf(hs, h); var r := RemoveFirst(hs, h);
      |r| == |hs| - 1 && forall m :: 0 <= m < |r| ==> r[m] == hs[Orig(m, i)]
  {
    var i := IndexOf(hs, h);
    var r := RemoveFirst(hs, h);
    var left, right := hs[..i], hs[i + 1..];
    assert r == left + right;
    forall m | 0 <= m < |r|
      ensures r[m] == hs[Orig(m, i)]
    {
      if m < i {
        assert r[m] == left[m];
      } else {
        assert r[m] == right[m - i];
      }
    }
  }

  /** Index in the list before the entry at `i` was removed. */
  function Orig(m: nat, i: nat): nat {
    if m < i then m else m + 1
  }

  /** Removing an owned handler that is registered once removes exactly it. */
  lemma RemoveOwned(hs: seq<Handler>, h: Handler)
    requires Owners(hs) && h in hs && !h.Custom?
    ensures Owners(RemoveFirst(hs, h))
    ensures h !in RemoveFirst(hs, h)
  {
    var i := IndexOf(hs, h);
    var r := RemoveFirst(hs, h);
    RemoveShift(hs, h);
    forall a, b | 0 <= a < |r| && 0 <= b < |r| && SameOwner(r[a], r[b])
      ensures a == b
    {
      assert SameOwner(hs[Orig(a, i)], hs[Orig(b, i)]);
    }
  }

  /** The fields no handler touches. */
  predicate SameRequestSide(c: Client, c': Client) {
    RequestSideOf(c') == RequestSideOf(c) && c'.waiters == c.waiters
  }

  /** The futures and `first` cells are as they were. */
  predicate SameFutures(c: Client, c': Client) {
    c'.first == c.first && c'.installed == c.installed && c'.changed == c.changed && c'.received == c.received
  }

  /** `after` is `before` with at most the entry `h` removed. */
  predicate RemovedAtMost(before: seq<Handler>, after: seq<Handler>, h: Handler) {
    && (forall x :: x in after ==> x in before)
    && (forall x :: x in before && x != h ==> x in after)
  }

  /** Everything calling handler `h` on event `data` does to `c`, given the
      pass invariant. */
  ghost predicate Stepped(c: Client, h: Handler, data: map<string, Json>, c': Client)
    requires "event" in data
  {
    && SameRequestSide(c, c') && c'.calls == c.calls + [Call(h, data)]
    && RemovedAtMost(c.handlers, c'.handlers, h)
    && (c'.reader == c.reader || (h.Observer? && LacksId(data) && c'.reader == Crashed(MissingKey(JStr("id")))))
    && (h.Observer? && LacksId(data) ==> c'.reader == Crashed(MissingKey(JStr("id"))))
    && (Stays(h, data) ==> c'.handlers == c.handlers && c'.spawned == c.spawned && SameFutures(c, c'))
    && (!Stays(h, data) && h.Waiter? ==>
          && h !in c'.handlers && c'.spawned == c.spawned
          && c'.first == c.first && c'.installed == c.installed && c'.changed == c.changed
          && c'.received == c.received[h.token := Done(JObj(data))])
    && (!Stays(h, data) && h.Observer? && h.obsId in c.first && c.first[h.obsId] ==>
          && c'.handlers == c.handlers && c'.spawned == c.spawned
          && c'.received == c.received && c'.changed == c.changed
          && c'.first == c.first[h.obsId := false] && c'.installed == c.installed[h.obsId := Done(JNull)])
    && (!Stays(h, data) && h.Observer? && !(h.obsId in c.first && c.first[h.obsId]) ==>
          && h !in c'.handlers && c'.spawned == c.spawned + [Unobserve(h.obsId)]
          && c'.received == c.received && c'.first == c.first && c'.installed == c.installed
          && c'.changed == c.changed[h.obsId := Done(JObj(data))])
  }

  /** Dropping the handler just called from the rest of the snapshot keeps
      the pass invariant when the handler list is unchanged. */
  lemma PassTail(c: Client, rest: seq<Handler>, c': Client)
    requires rest != [] && PassInv(c, rest)
    requires Inv(c') && c'.handlers == c.handlers
    ensures PassInv(c', rest[1..])
  {
    forall a, b | 0 <= a < |rest[1..]| && 0 <= b < |rest[1..]| && SameOwner(rest[1..][a], rest[1..][b])
      ensures a == b
    {
      assert SameOwner(rest[a + 1], rest[b + 1]);
    }
  }

  /** The owned handler at the head of the snapshot does not occur again in it. */
  lemma AfterOwner(rest: seq<Handler>)
    requires rest != [] && !rest[0].Custom? && Owners(rest)
    ensures rest[0] !in rest[1..]
    ensures Owners(rest[1..])
  {
    forall a, b | 0 <= a < |rest[1..]| && 0 <= b < |rest[1..]| && SameOwner(rest[1..][a], rest[1..][b])
      ensures a == b
    {
      assert SameOwner(rest[a + 1], rest[b + 1]);
    }
  }

  /** No later entry of the snapshot owns what its head owns. */
  lemma OwnerUnique(rest: seq<Handler>)
    requires rest != [] && Owners(rest)
    ensures forall h :: h in rest[1..] ==> !SameOwner(rest[0], h)
  {
    forall h | h in rest[1..]
      ensures !SameOwner(rest[0], h)
    {
      var j :| 0 <= j < |rest[1..]| && rest[1..][j] == h;
      assert rest[j + 1] == h;
    }
  }

  // ---------------------------------------------------------------- one handler, branch by branch

  lemma CustomStep(c: Client, rest: seq<Handler>, data: map<string, Json>)
    requires "event" in data && rest != [] && rest[0].Custom? && PassInv(c, rest)
    ensures PassInv(CallHandler(c, rest[0], data), rest[1..])
    ensures Stepped(c, rest[0], data, CallHandler(c, rest[0], data))
  {
    PassTail(c, rest, CallHandler(c, rest[0], data));
  }

  lemma WaiterStaysStep(c: Client, rest: seq<Handler>, data: map<string, Json>)
    requires "event" in data && rest != [] && rest[0].Waiter? && PassInv(c, rest)
    requires data["event"] != JStr(rest[0].name)
    ensures PassInv(CallHandler(c, rest[0], data), rest[1..])
    ensures Stepped(c, rest[0], data, CallHandler(c, rest[0], data))
  {
    var c' := CallHandler(c, rest[0], data);
    assert c' == c.(calls := c.calls + [Call(rest[0], data)]);
    PassTail(c, rest, c');
  }

  /** The invariant survives a waiter firing. */
  lemma InvAfterFire(c: Client, h: Handler, data: map<string, Json>)
    requires Inv(c) && h.Waiter? && h in c.handlers
    ensures Inv(c.(handlers := RemoveFirst(c.handlers, h), received := c.received[h.token := Done(JObj(data))]))
  {
    RemoveFirstMembers(c.handlers, h);
    RemoveOwned(c.handlers, h);
  }

  /** The invariant survives an observation's first phase. */
  lemma InvAfterInstall(c: Client, id: nat)
    requires Inv(c) && id in c.first && c.first[id]
    ensures Inv(c.(first := c.first[id := false], installed := c.installed[id := Done(JNull)]))
  {
  }

  /** The invariant survives an observation's second phase. */
  lemma InvAfterChange(c: Client, id: nat, data: map<string, Json>)
    requires Inv(c) && id in c.first && !c.first[id] && Observer(id) in c.handlers
    ensures Inv(c.(changed := c.changed[id := Done(JObj(data))],
                   handlers := RemoveFirst(c.handlers, Observer(id)),
                   spawned := c.spawned + [Unobserve(id)]))
  {
    RemoveFirstMembers(c.handlers, Observer(id));
    RemoveOwned(c.handlers, Observer(id));
  }

  /** After the head of the snapshot removed itself, the rest is still registered. */
  lemma PassAfterRemoval(c: Client, rest: seq<Handler>, c': Client)
    requires rest != [] && !rest[0].Custom? && PassInv(c, rest)
    requires Inv(c') && c'.handlers == RemoveFirst(c.handlers, rest[0])
    ensures PassInv(c', rest[1..])
  {
    AfterOwner(rest);
    RemoveFirstMembers(c.handlers, rest[0]);
  }

  lemma WaiterFiresStep(c: Client, rest: seq<Handler>, data: map<string, Json>)
    requires "event" in data && rest != [] && rest[0].Waiter? && PassInv(c, rest)
    requires data["event"] == JStr(rest[0].name)
    ensures PassInv(CallHandler(c, rest[0], data), rest[1..])
    ensures Stepped(c, rest[0], data, CallHandler(c, rest[0], data))
  {
    var h := rest[0];
    var c1 := c.(calls := c.calls + [Call(h, data)]);
    var c' := c1.(handlers := RemoveFirst(c.handlers, h), received := c.received[h.token := Done(JObj(data))]);
    assert CallHandler(c, h, data) == c';
    InvAfterFire(c1, h, data);
    PassAfterRemoval(c, rest, c');
    RemoveFirstMembers(c.handlers, h);
    RemoveOwned(c.handlers, h);
  }

  lemma ObserverLacksIdStep(c: Client, rest: seq<Handler>, data: map<string, Json>)
    requires "event" in data && rest != [] && rest[0].Observer? && PassInv(c, rest)
    requires LacksId(data)
    ensures PassInv(CallHandler(c, rest[0], data), rest[1..])
    ensures Stepped(c, rest[0], data, CallHandler(c, rest[0], data))
  {
    var c' := c.(calls := c.calls + [Call(rest[0], data)], reader := Crashed(MissingKey(JStr("id"))));
    assert CallHandler(c, rest[0], data) == c';
    PassTail(c, rest, c');
  }

  lemma ObserverIgnoresStep(c: Client, rest: seq<Handler>, data: map<string, Json>)
    requires "event" in data && rest != [] && rest[0].Observer? && PassInv(c, rest)
    requires !IsChangeOf(data, rest[0].obsId) && !LacksId(data)
    ensures PassInv(CallHandler(c, rest[0], data), rest[1..])
    ensures Stepped(c, rest[0], data, CallHandler(c, rest[0], data))
  {
    var c' := c.(calls := c.calls + [Call(rest[0], data)]);
    assert CallHandler(c, rest[0], data) == c';
    PassTail(c, rest, c');
  }

  lemma ObserverInstallsStep(c: Client, rest: seq<Handler>, data: map<string, Json>)
    requires "event" in data && rest != [] && rest[0].Observer? && PassInv(c, rest)
    requires IsChangeOf(data, rest[0].obsId) && c.first[rest[0].obsId]
    ensures PassInv(CallHandler(c, rest[0], data), rest[1..])
    ensures Stepped(c, rest[0], data, CallHandler(c, rest[0], data))
  {
    var id := rest[0].obsId;
    var c1 := c.(calls := c.calls + [Call(rest[0], data)]);
    var c' := c1.(first := c.first[id := false], installed := c.installed[id := Done(JNull)]);
    assert CallHandler(c, rest[0], data) == c';
    InvAfterInstall(c1, id);
    PassTail(c, rest, c');
  }

  /** What an observation handler does on its second property-change event. */
  lemma ObserverChangesResult(c: Client, h: Handler, data: map<string, Json>)
    requires "event" in data && h.Observer? && h in c.handlers
    requires IsChangeOf(data, h.obsId) && h.obsId in c.first && !c.first[h.obsId]
    requires h.obsId in c.changed && c.changed[h.obsId].Pending?
    ensures CallHandler(c, h, data)
         == c.(calls := c.calls + [Call(h, data)], changed := c.changed[h.obsId := Done(JObj(data))],
               handlers := RemoveFirst(c.handlers, h), spawned := c.spawned + [Unobserve(h.obsId)])
  {
  }

  lemma ObserverChangesStepped(c: Client, h: Handler, data: map<string, Json>)
    requires "event" in data && h.Observer? && h in c.handlers && Inv(c)
    requires IsChangeOf(data, h.obsId) && !c.first[h.obsId]
    ensures Stepped(c, h, data, CallHandler(c, h, data))
  {
    ObserverChangesResult(c, h, data);
    RemoveFirstMembers(c.handlers, h);
    RemoveOwned(c.handlers, h);
  }

  lemma ObserverChangesStep(c: Client, rest: seq<Handler>, data: map<string, Json>)
    requires "event" in data && rest != [] && rest[0].Observer? && PassInv(c, rest)
    requires IsChangeOf(data, rest[0].obsId) && !c.first[rest[0].obsId]
    ensures PassInv(CallHandler(c, rest[0], data), rest[1..])
    ensures Stepped(c, rest[0], data, CallHandler(c, rest[0], data))
  {
    var h := rest[0];
    var id := h.obsId;
    var c1 := c.(calls := c.calls + [Call(h, data)]);
    var c' := c1.(changed := c.changed[id := Done(JObj(data))], handlers := RemoveFirst(c.handlers, h),
                  spawned := c.spawned + [Unobserve(id)]);
    ObserverChangesResult(c, h, data);
    InvAfterChange(c1, id, data);
    PassAfterRemoval(c, rest, c');
    ObserverChangesStepped(c, h, data);
  }

  /** Calling the next handler of the snapshot keeps the pass invariant and
      does exactly what `Stepped` says. */
  lemma CallHandlerStep(c: Client, rest: seq<Handler>, data: map<string, Json>)
    requires "event" in data && rest != [] && PassInv(c, rest)
    ensures PassInv(CallHandler(c, rest[0], data), rest[1..])
    ensures Stepped(c, rest[0], data, CallHandler(c, rest[0], data))
  {
    match rest[0]
    case Custom(_) => CustomStep(c, rest, data);
    case Waiter(_, name) =>
      if data["event"] == JStr(name) {
        WaiterFiresStep(c, rest, data);
      } else {
        WaiterStaysStep(c, rest, data);
      }
    case Observer(id) =>
      if LacksId(data) {
        ObserverLacksIdStep(c, rest, data);
      } else if !IsChangeOf(data, id) {
        ObserverIgnoresStep(c, rest, data);
      } else if c.first[id] {
        ObserverInstallsStep(c, rest, data);
      } else {
        ObserverChangesStep(c, rest, data);
      }
  }

  // ---------------------------------------------------------------- a whole pass

  /** A snapshot holds an observation handler. */
  predicate HasObserver(hs: seq<Handler>) {
    exists i :: 0 <= i < |hs| && hs[i].Observer?
  }

  /** A pass keeps the invariant. */
  lemma {:induction false} DispatchInv(c: Client, rest: seq<Handler>, d: map<string, Json>)
    requires "event" in d && PassInv(c, rest)
    ensures Inv(Dispatch(c, rest, d))
    decreases |rest|
  {
    if rest != [] && c.reader.Running? {
      CallHandlerStep(c, rest, d);
      DispatchInv(CallHandler(c, rest[0], d), rest[1..], d);
    }
  }

  /** A pass leaves the request side alone, only removes handlers, and keeps
      every handler the event does not concern. */
  lemma {:induction false} DispatchFrame(c: Client, rest: seq<Handler>, d: map<string, Json>)
    requires "event" in d && PassInv(c, rest)
    ensures SameRequestSide(c, Dispatch(c, rest, d))
    ensures forall x :: x in Dispatch(c, rest, d).handlers ==> x in c.handlers
    ensures forall x :: x in c.handlers && (x in rest ==> Stays(x, d)) ==> x in Dispatch(c, rest, d).handlers
    decreases |rest|
  {
    if rest != [] && c.reader.Running? {
      CallHandlerStep(c, rest, d);
      DispatchFrame(CallHandler(c, rest[0], d), rest[1..], d);
    }
  }

  /** A pass calls the handlers of the snapshot in order, stopping only when
      one raises. */
  lemma {:induction false} DispatchCalls(c: Client, rest: seq<Handler>, d: map<string, Json>)
    requires "event" in d
    ensures c.calls <= Dispatch(c, rest, d).calls <= c.calls + CallsOf(rest, d)
    ensures Dispatch(c, rest, d).reader.Running? ==> Dispatch(c, rest, d).calls == c.calls + CallsOf(rest, d)
    decreases |rest|
  {
    if rest != [] && c.reader.Running? {
      var c' := CallHandler(c, rest[0], d);
      var x := Call(rest[0], d);
      assert c'.calls == c.calls + [x];
      DispatchCalls(c', rest[1..], d);
      var tail := CallsOf(rest[1..], d);
      assert CallsOf(rest, d) == [x] + tail;
      Assoc(c.calls, x, tail);
    }
  }

  lemma Assoc<T>(a: seq<T>, x: T, b: seq<T>)
    ensures a + ([x] + b) == (a + [x]) + b
  {
  }

  /** Calling one handler under the pass invariant raises only on a
      property-change event without an `id`, and only in an observation handler. */
  lemma StepReader(c: Client, rest: seq<Handler>, d: map<string, Json>)
    requires "event" in d && rest != [] && PassInv(c, rest) && c.reader.Running?
    ensures PassInv(CallHandler(c, rest[0], d), rest[1..])
    ensures CallHandler(c, rest[0], d).reader
         == if rest[0].Observer? && LacksId(d) then Crashed(MissingKey(JStr("id"))) else Running
  {
    CallHandlerStep(c, rest, d);
  }

  /** The reader survives a pass unless an observation handler meets a
      property-change event without an `id`. */
  lemma {:induction false} DispatchRaises(c: Client, rest: seq<Handler>, d: map<string, Json>)
    requires "event" in d && PassInv(c, rest) && c.reader.Running?
    ensures Dispatch(c, rest, d).reader
         == if LacksId(d) && HasObserver(rest) then Crashed(MissingKey(JStr("id"))) else Running
    decreases |rest|
  {
    if rest != [] {
      var c' := CallHandler(c, rest[0], d);
      StepReader(c, rest, d);
      if rest[0].Observer? && LacksId(d) {
        assert HasObserver(rest);
      } else {
        DispatchRaises(c', rest[1..], d);
        HasObserverTail(rest);
      }
    }
  }

  lemma HasObserverTail(rest: seq<Handler>)
    requires rest != []
    ensures HasObserver(rest) <==> rest[0].Observer? || HasObserver(rest[1..])
  {
    if HasObserver(rest) && !rest[0].Observer? {
      var i :| 0 <= i < |rest| && rest[i].Observer?;
      assert rest[1..][i - 1].Observer?;
    }
    if HasObserver(rest[1..]) {
      var i :| 0 <= i < |rest[1..]| && rest[1..][i].Observer?;
      assert rest[i + 1].Observer?;
    }
  }

  /** A future of `event_received` changes only when its own waiter is in
      the snapshot and the event has the awaited name. */
  lemma {:induction false} DispatchReceivedFrame(c: Client, rest: seq<Handler>, d: map<string, Json>, t: nat)
    requires "event" in d
    requires forall h :: h in rest && h.Waiter? && h.token == t ==> Stays(h, d)
    ensures t in c.received ==> t in Dispatch(c, rest, d).received && Dispatch(c, rest, d).received[t] == c.received[t]
    decreases |rest|
  {
    if rest != [] && c.reader.Running? {
      DispatchReceivedFrame(CallHandler(c, rest[0], d), rest[1..], d, t);
    }
  }

  /** A waiter in the snapshot whose event arrives resolves its future with
      the event and leaves the handler list. */
  lemma {:induction false} DispatchWaiterFires(c: Client, rest: seq<Handler>, d: map<string, Json>, t: nat, name: string)
    requires "event" in d && PassInv(c, rest)
    requires Waiter(t, name) in rest && d["event"] == JStr(name)
    ensures Dispatch(c, rest, d).reader.Running? ==>
      && t in Dispatch(c, rest, d).received && Dispatch(c, rest, d).received[t] == Done(JObj(d))
      && Waiter(t, name) !in Dispatch(c, rest, d).handlers
    decreases |rest|
  {
    if c.reader.Running? {
      var c' := CallHandler(c, rest[0], d);
      CallHandlerStep(c, rest, d);
      OwnerUnique(rest);
      if rest[0] == Waiter(t, name) {
        DispatchReceivedFrame(c', rest[1..], d, t);
        DispatchFrame(c', rest[1..], d);
      } else {
        DispatchWaiterFires(c', rest[1..], d, t, name);
      }
    }
  }

  /** One handler call leaves the cells of observation `id` unless it is
      that observation's handler meeting its property change. */
  lemma StepCells(c: Client, h: Handler, d: map<string, Json>, id: nat)
    requires "event" in d && id in c.first && id in c.installed && id in c.changed
    requires h == Observer(id) ==> !IsChangeOf(d, id)
    ensures var c' := CallHandler(c, h, d);
      && id in c'.first && c'.first[id] == c.first[id]
      && id in c'.installed && c'.installed[id] == c.installed[id]
      && id in c'.changed && c'.changed[id] == c.changed[id]
  {
    match h
    case Custom(_) =>
    case Waiter(_, _) =>
    case Observer(k) =>
      if k == id {
        var c1 := c.(calls := c.calls + [Call(h, d)]);
        assert CallHandler(c, h, d) == CallObserver(c1, id, d);
      }
  }

  /** The `first` cell and the two futures of observation `id` change only
      when its handler is in the snapshot and the event is its property
      change. */
  lemma {:induction false} DispatchObservationFrame(c: Client, rest: seq<Handler>, d: map<string, Json>, id: nat)
    requires "event" in d && id in c.first && id in c.installed && id in c.changed
    requires Observer(id) in rest ==> !IsChangeOf(d, id)
    ensures id in Dispatch(c, rest, d).first && Dispatch(c, rest, d).first[id] == c.first[id]
    ensures id in Dispatch(c, rest, d).installed && Dispatch(c, rest, d).installed[id] == c.installed[id]
    ensures id in Dispatch(c, rest, d).changed && Dispatch(c, rest, d).changed[id] == c.changed[id]
    decreases |rest|
  {
    if rest != [] && c.reader.Running? {
      StepCells(c, rest[0], d, id);
      DispatchObservationFrame(CallHandler(c, rest[0], d), rest[1..], d, id);
    }
  }

  /** No `unobserve_property` is queued by a pass in which no observation
      handler meets its second property change. */
  lemma {:induction false} DispatchSpawnedFrame(c: Client, rest: seq<Handler>, d: map<string, Json>)
    requires "event" in d && PassInv(c, rest)
    requires forall h :: h in rest && h.Observer? && IsChangeOf(d, h.obsId) ==> h.obsId in c.first && c.first[h.obsId]
    ensures Dispatch(c, rest, d).spawned == c.spawned
    decreases |rest|
  {
    if rest != [] && c.reader.Running? {
      CallHandlerStep(c, rest, d);
      OwnerUnique(rest);
      DispatchSpawnedFrame(CallHandler(c, rest[0], d), rest[1..], d);
    }
  }

  /** The observation handler met by its first property change in a pass:
      the `installed` future resolves and the handler stays. */
  lemma {:induction false} DispatchObserverInstalls(c: Client, rest: seq<Handler>, d: map<string, Json>, id: nat)
    requires "event" in d && PassInv(c, rest) && c.reader.Running?
    requires Observer(id) in rest && IsChangeOf(d, id) && id in c.first && c.first[id]
    ensures var c'' := Dispatch(c, rest, d);
      && id in c''.first && !c''.first[id]
      && id in c''.installed && c''.installed[id] == Done(JNull)
      && id in c''.changed && c''.changed[id] == c.changed[id]
      && Observer(id) in c''.handlers && c''.spawned == c.spawned
    decreases |rest|
  {
    var c' := CallHandler(c, rest[0], d);
    CallHandlerStep(c, rest, d);
    OwnerUnique(rest);
    if rest[0] == Observer(id) {
      DispatchObservationFrame(c', rest[1..], d, id);
      DispatchFrame(c', rest[1..], d);
      DispatchSpawnedFrame(c', rest[1..], d);
    } else {
      DispatchObserverInstalls(c', rest[1..], d, id);
    }
  }

  /** The observation handler met by its second property change in a pass:
      the `changed` future resolves with the event, the handler leaves, and
      one `unobserve_property` command is queued. */
  lemma {:induction false} DispatchObserverChanges(c: Client, rest: seq<Handler>, d: map<string, Json>, id: nat)
    requires "event" in d && PassInv(c, rest) && c.reader.Running?
    requires Observer(id) in rest && IsChangeOf(d, id) && id in c.first && !c.first[id]
    ensures var c'' := Dispatch(c, rest, d);
      && id in c''.first && c''.first[id] == c.first[id]
      && id in c''.installed && c''.installed[id] == c.installed[id]
      && id in c''.changed && c''.changed[id] == Done(JObj(d))
      && Observer(id) !in c''.handlers && c''.spawned == c.spawned + [Unobserve(id)]
    decreases |rest|
  {
    var c' := CallHandler(c, rest[0], d);
    CallHandlerStep(c, rest, d);
    OwnerUnique(rest);
    if rest[0] == Observer(id) {
      DispatchObservationFrame(c', rest[1..], d, id);
      DispatchFrame(c', rest[1..], d);
      DispatchSpawnedFrame(c', rest[1..], d);
    } else {
      DispatchObserverChanges(c', rest[1..], d, id);
    }
  }
}

=== FILE: ipc_properties.dfy ===
/**
  What the IPC client promises, stated over its transitions: the invariant
  is kept by every step, request ids are fresh, a completed future never
  changes again, and what one inbound line does to each request and to
  each waiting caller.
 */
module IpcProperties {
  import opened Wrappers
  import opened JsonValue
  import opened IpcState
  import opened IpcDispatch

  // ---------------------------------------------------------------- the invariant, step by step

  lemma InitialInv()
    ensures Inv(Initial())
  {
  }

  /** A new request id has never been used: it is neither pending nor among
      the lines already written. */
  lemma IssueFresh(c: Client, args: seq<Json>)
    requires Inv(c)
    ensures c.requestId + 1 !in c.pending
    ensures forall r :: r in c.sent ==> r.requestId != c.requestId + 1
    ensures Issue(c, args).pending == c.pending[c.requestId + 1 := Pending]
    ensures Issue(c, args).sent == c.sent + [Request(args, c.requestId + 1)]
  {
    forall r | r in c.sent
      ensures r.requestId != c.requestId + 1
    {
      var i :| 0 <= i < |c.sent| && c.sent[i] == r;
    }
  }

  lemma IssueInv(c: Client, args: seq<Json>)
    requires Inv(c)
    ensures Inv(Issue(c, args))
  {
    var c' := Issue(c, args);
    forall i | 0 <= i < |c'.sent|
      ensures c'.sent[i].requestId == i + 1
    {
      if i < |c.sent| {
        assert c'.sent[i] == c.sent[i];
      }
    }
  }

  lemma FinishCommandInv(c: Client, id: int)
    requires Inv(c) && id in c.pending
    ensures Inv(FinishCommand(c, id))
  {
  }

  lemma RegisterInv(c: Client, fn: nat)
    requires Inv(c)
    ensures Inv(Register(c, fn))
  {
    var hs := c.handlers + [Custom(fn)];
    forall i, j | 0 <= i < |hs| && 0 <= j < |hs| && SameOwner(hs[i], hs[j])
      ensures i == j
    {
      assert i < |c.handlers| && j < |c.handlers|;
      assert SameOwner(c.handlers[i], c.handlers[j]);
    }
  }

  /** `list.remove` keeps distinct ownership. */
  lemma RemoveKeepsOwners(hs: seq<Handler>, h: Handler)
    requires Owners(hs)
    ensures Owners(RemoveFirst(hs, h))
  {
    if h in hs {
      var i := IndexOf(hs, h);
      var r := RemoveFirst(hs, h);
      RemoveShift(hs, h);
      forall a, b | 0 <= a < |r| && 0 <= b < |r| && SameOwner(r[a], r[b])
        ensures a == b
      {
        assert SameOwner(hs[Orig(a, i)], hs[Orig(b, i)]);
      }
    }
  }

  lemma UnregisterInv(c: Client, fn: nat)
    requires Inv(c)
    ensures Inv(Unregister(c, fn))
  {
    RemoveKeepsOwners(c.handlers, Custom(fn));
    RemoveFirstMembers(c.handlers, Custom(fn));
  }

  lemma ObserveRegisterInv(c: Client)
    requires Inv(c)
    ensures Inv(ObserveRegister(c))
  {
    var id := c.observeId + 1;
    var hs := c.handlers + [Observer(id)];
    assert Observer(id) !in c.handlers;
    forall i, j | 0 <= i < |hs| && 0 <= j < |hs| && SameOwner(hs[i], hs[j])
      ensures i == j
    {
      if i < |c.handlers| && j < |c.handlers| {
        assert SameOwner(c.handlers[i], c.handlers[j]);
      }
    }
  }

  lemma ObserveStartInv(c: Client, name: string)
    requires Inv(c)
    ensures Inv(ObserveStart(c, name))
  {
    var id := c.observeId + 1;
    ObserveRegisterInv(c);
    IssueInv(ObserveRegister(c), [JStr("observe_property"), JInt(id), JStr(name)]);
  }

  lemma WaitEventInv(c: Client, name: string)
    requires Inv(c)
    ensures Inv(WaitEvent(c, name))
  {
    var t := c.waiters;
    var hs := c.handlers + [Waiter(t, name)];
    forall i, j | 0 <= i < |hs| && 0 <= j < |hs| && SameOwner(hs[i], hs[j])
      ensures i == j
    {
      if i < |c.handlers| && j < |c.handlers| {
        assert SameOwner(c.handlers[i], c.handlers[j]);
      }
    }
  }

  lemma StartSpawnedInv(c: Client)
    requires Inv(c) && c.spawned != []
    ensures Inv(StartSpawned(c))
  {
    IssueInv(c.(spawned := c.spawned[1..]), c.spawned[0]);
  }

  lemma CloseInv(c: Client)
    requires Inv(c)
    ensures Inv(Close(c))
  {
  }

  lemma RespondInv(c: Client, data: map<string, Json>)
    requires Inv(c)
    ensures Inv(Respond(c, data))
  {
  }

  lemma ReadLineInv(c: Client, line: Line)
    requires Inv(c) && c.reader.Running?
    ensures Inv(ReadLine(c, line))
  {
    if line.Decoded? && line.value.JObj? {
      var d := line.value.fields;
      if IsEvent(d) {
        PassStart(c);
        DispatchInv(c, c.handlers, d);
      } else {
        RespondInv(c, d);
      }
    }
  }

  lemma {:induction false} ReadLinesInv(c: Client, lines: seq<Line>)
    requires Inv(c)
    ensures Inv(ReadLines(c, lines))
    decreases |lines|
  {
    if lines != [] && c.reader.Running? {
      ReadLineInv(c, lines[0]);
      ReadLinesInv(ReadLine(c, lines[0]), lines[1..]);
    }
  }

  /** Once the stream has ended, or a line has raised, the reader is gone:
      it reads nothing more, and it never comes back. */
  lemma {:induction false} ReadLinesEnds(c: Client, lines: seq<Line>)
    ensures EndOfStream in lines ==> !ReadLines(c, lines).reader.Running?
    ensures !c.reader.Running? ==> ReadLines(c, lines) == c
    ensures ReadLines(c, lines).reader.Running? ==> c.reader.Running?
    decreases |lines|
  {
    if lines != [] && c.reader.Running? {
      var c' := ReadLine(c, lines[0]);
      ReadLinesEnds(c', lines[1..]);
      if lines[0] != EndOfStream && EndOfStream in lines {
        assert EndOfStream in lines[1..];
      }
    }
  }

  // ---------------------------------------------------------------- one inbound line

  /** End of stream closes the writer, stops the reader, and cancels exactly
      the requests still waiting; the event-derived futures are left as
      they are. */
  lemma EndOfStreamCancels(c: Client)
    requires c.reader.Running?
    ensures var c' := ReadLine(c, EndOfStream);
      && c'.reader == Stopped && c'.writerClosed
      && c'.pending.Keys == c.pending.Keys
      && (forall id :: id in c.pending && c.pending[id].Pending? ==> c'.pending[id] == Cancelled)
      && (forall id :: id in c.pending && !c.pending[id].Pending? ==> c'.pending[id] == c.pending[id])
      && c'.handlers == c.handlers && c'.received == c.received
      && c'.installed == c.installed && c'.changed == c.changed && c'.spawned == c.spawned
  {
  }

  /** A line that does not decode to a JSON object ends the reader and
      changes nothing else. */
  lemma MalformedLineCrashes(c: Client, line: Line)
    requires c.reader.Running?
    requires line.Garbled? || (line.Decoded? && !line.value.JObj?)
    ensures ReadLine(c, line) == c.(reader := Crashed(if line.Garbled? then DecodeError else NotAnObject))
  {
  }

  /** A response for a request that is waiting resolves its slot: with the
      `data` field on `success`, with the error otherwise. */
  lemma ResponseSettles(c: Client, d: map<string, Json>, id: int)
    requires c.reader.Running? && !IsEvent(d)
    requires "request_id" in d && IntKey(d["request_id"]) == Some(id) && "error" in d
    requires id in c.pending && c.pending[id].Pending?
    ensures ReadLine(c, Decoded(JObj(d)))
         == c.(pending := c.pending[id := if d["error"] == JStr("success") then Done(Get(d, "data")) else Failed(d["error"])])
  {
  }

  /** A response whose `request_id` names no pending request ends the
      reader with a KeyError; no request is resolved. */
  lemma ResponseUnknownId(c: Client, d: map<string, Json>)
    requires c.reader.Running? && !IsEvent(d) && "request_id" in d
    requires IntKey(d["request_id"]).None? || IntKey(d["request_id"]).value !in c.pending
    requires !d["request_id"].JList? && !d["request_id"].JObj?
    ensures ReadLine(c, Decoded(JObj(d))) == c.(reader := Crashed(MissingKey(d["request_id"])))
  {
  }

  /** A second response for a request already resolved ends the reader
      (the future refuses a second result); the first outcome stands. */
  lemma ResponseTwice(c: Client, d: map<string, Json>, id: int)
    requires c.reader.Running? && !IsEvent(d)
    requires "request_id" in d && IntKey(d["request_id"]) == Some(id) && "error" in d
    requires id in c.pending && !c.pending[id].Pending?
    ensures ReadLine(c, Decoded(JObj(d))) == c.(reader := Crashed(InvalidState))
  {
  }

  /** An event line never resolves or removes a request, calls every
      handler of the snapshot taken before the first call, and ends the
      reader only on a property-change without `id` while an observation
      handler is registered. */
  lemma EventOutcome(c: Client, d: map<string, Json>)
    requires Inv(c) && c.reader.Running? && IsEvent(d)
    ensures var c' := ReadLine(c, Decoded(JObj(d)));
      && RequestSideOf(c') == RequestSideOf(c)
      && c'.reader == (if LacksId(d) && HasObserver(c.handlers) then Crashed(MissingKey(JStr("id"))) else Running)
      && (c'.reader.Running? ==> c'.calls == c.calls + CallsOf(c.handlers, d))
      && c.calls <= c'.calls
  {
    PassStart(c);
    DispatchFrame(c, c.handlers, d);
    DispatchRaises(c, c.handlers, d);
    DispatchCalls(c, c.handlers, d);
  }

  /** The awaited event resolves the future of `event_received` with the
      event and unregisters its handler. */
  lemma WaiterFires(c: Client, d: map<string, Json>, t: nat, name: string)
    requires Inv(c) && c.reader.Running? && IsEvent(d)
    requires Waiter(t, name) in c.handlers && d["event"] == JStr(name)
    ensures var c' := ReadLine(c, Decoded(JObj(d)));
      c'.reader.Running? ==> t in c'.received && c'.received[t] == Done(JObj(d)) && Waiter(t, name) !in c'.handlers
  {
    PassStart(c);
    DispatchWaiterFires(c, c.handlers, d, t, name);
  }

  /** The reader survives the pass unless the event is a `property-change`
      without `id` and an observation handler is registered; then the
      awaited event always resolves the waiter's future and unregisters it. */
  lemma WaiterFiresUnlessCrash(c: Client, d: map<string, Json>, t: nat, name: string)
    requires Inv(c) && c.reader.Running? && IsEvent(d)
    requires Waiter(t, name) in c.handlers && d["event"] == JStr(name)
    requires !LacksId(d) || !HasObserver(c.handlers)
    ensures var c' := ReadLine(c, Decoded(JObj(d)));
      c'.reader.Running? && t in c'.received && c'.received[t] == Done(JObj(d)) && Waiter(t, name) !in c'.handlers
  {
    EventOutcome(c, d);
    WaiterFires(c, d, t, name);
  }

  /** Any other event leaves an `event_received` waiter registered and its
      future pending. */
  lemma WaiterIgnores(c: Client, d: map<string, Json>, t: nat, name: string)
    requires Inv(c) && c.reader.Running? && IsEvent(d)
    requires Waiter(t, name) in c.handlers && d["event"] != JStr(name)
    ensures var c' := ReadLine(c, Decoded(JObj(d)));
      t in c'.received && c'.received[t] == Pending && Waiter(t, name) in c'.handlers
  {
    PassStart(c);
    DispatchReceivedFrame(c, c.handlers, d, t);
    DispatchFrame(c, c.handlers, d);
  }

  /** The first property change of an observation resolves `installed`
      and keeps the handler for the second. */
  lemma ObserverInstalls(c: Client, d: map<string, Json>, id: nat)
    requires Inv(c) && c.reader.Running?
    requires Observer(id) in c.handlers && IsChangeOf(d, id) && c.first[id]
    ensures var c' := ReadLine(c, Decoded(JObj(d)));
      && id in c'.installed && c'.installed[id] == Done(JNull)
      && id in c'.first && !c'.first[id]
      && id in c'.changed && c'.changed[id] == Pending
      && Observer(id) in c'.handlers && c'.spawned == c.spawned
  {
    assert IsEvent(d);
    PassStart(c);
    DispatchObserverInstalls(c, c.handlers, d, id);
  }

  /** The second property change of an observation resolves `changed` with
      the event, unregisters the handler and queues one
      `unobserve_property` command. */
  lemma ObserverChanges(c: Client, d: map<string, Json>, id: nat)
    requires Inv(c) && c.reader.Running?
    requires Observer(id) in c.handlers && IsChangeOf(d, id) && !c.first[id]
    ensures var c' := ReadLine(c, Decoded(JObj(d)));
      && id in c'.changed && c'.changed[id] == Done(JObj(d))
      && id in c'.installed && c'.installed[id] == c.installed[id]
      && Observer(id) !in c'.handlers && c'.spawned == c.spawned + [Unobserve(id)]
  {
    assert IsEvent(d);
    PassStart(c);
    DispatchObserverChanges(c, c.handlers, d, id);
  }

  /** Any other event leaves an observation as it was. */
  lemma ObserverIgnores(c: Client, d: map<string, Json>, id: nat)
    requires Inv(c) && c.reader.Running? && IsEvent(d)
    requires id in c.first && !IsChangeOf(d, id)
    ensures var c' := ReadLine(c, Decoded(JObj(d)));
      && id in c'.first && c'.first[id] == c.first[id]
      && id in c'.installed && c'.installed[id] == c.installed[id]
      && id in c'.changed && c'.changed[id] == c.changed[id]
      && (Observer(id) in c.handlers ==> Observer(id) in c'.handlers)
  {
    PassStart(c);
    DispatchObservationFrame(c, c.handlers, d, id);
    DispatchFrame(c, c.handlers, d);
  }

  // ---------------------------------------------------------------- every interleaving

  /** One atomic step of the client, as the event loop may schedule them. */
  datatype Step =
    | CommandStep(args: seq<Json>)    // a `command(*args)` coroutine runs to its first await
    | ReturnStep(id: int)             // the `command` owning slot `id` leaves through its `finally`
    | EnterHandler(fn: nat)           // `with event_handler(fn)` entered
    | ExitHandler(fn: nat)            // ... and left
    | ObserveStep(name: string)       // `property_changed(name)` runs to its first await
    | WaitStep(name: string)          // `event_received(name)`
    | SpawnedStep                     // the oldest spawned `unobserve_property` task starts
    | CloseStep                       // `close()`
    | LineStep(line: Line)            // the reader task handles one line

  /** When the event loop can take a step: a command leaves once its future
      is complete, or while its future is still pending once the writer is
      closed (then `await self.writer.drain()` raises and the `finally` runs
      all the same); the reader steps only while it runs. */
  predicate Enabled(c: Client, s: Step) {
    match s
    case ReturnStep(id) => id in c.pending && (!c.pending[id].Pending? || c.writerClosed)
    case SpawnedStep => c.spawned != []
    case LineStep(_) => c.reader.Running?
    case _ => true
  }

  function Next(c: Client, s: Step): Client
    requires Enabled(c, s)
  {
    match s
    case CommandStep(args) => Issue(c, args)
    case ReturnStep(id) => FinishCommand(c, id)
    case EnterHandler(fn) => Register(c, fn)
    case ExitHandler(fn) => Unregister(c, fn)
    case ObserveStep(name) => ObserveStart(c, name)
    case WaitStep(name) => WaitEvent(c, name)
    case SpawnedStep => StartSpawned(c)
    case CloseStep => Close(c)
    case LineStep(line) => ReadLine(c, line)
  }

  /** Every step keeps the invariant. */
  lemma NextInv(c: Client, s: Step)
    requires Inv(c) && Enabled(c, s)
    ensures Inv(Next(c, s))
  {
    match s
    case CommandStep(args) => IssueInv(c, args);
    case ReturnStep(id) => FinishCommandInv(c, id);
    case EnterHandler(fn) => RegisterInv(c, fn);
    case ExitHandler(fn) => UnregisterInv(c, fn);
    case ObserveStep(name) => ObserveStartInv(c, name);
    case WaitStep(name) => WaitEventInv(c, name);
    case SpawnedStep => StartSpawnedInv(c);
    case CloseStep => CloseInv(c);
    case LineStep(line) => ReadLineInv(c, line);
  }

  /** A request slot lives from its command until that command resumes:
      only `ReturnStep(id)` removes it, and a removed id never comes back. */
  lemma PendingLifecycle(c: Client, s: Step, id: int)
    requires Inv(c) && Enabled(c, s)
    ensures id in c.pending && s != ReturnStep(id) ==> id in Next(c, s).pending
    ensures id !in c.pending && id <= c.requestId ==> id !in Next(c, s).pending
  {
    if s.LineStep? {
      var line := s.line;
      if line.Decoded? && line.value.JObj? && IsEvent(line.value.fields) {
        PassStart(c);
        DispatchFrame(c, c.handlers, line.value.fields);
      }
    } else {
      CallerPending(c, s, id);
    }
  }

  /** Once the writer is closed (by `close()` or at end of stream), every
      command still owning a slot can leave through its `finally`, whether
      or not its future completed, and its slot is then gone. */
  lemma SlotFreedAfterClose(c: Client, id: int)
    requires id in c.pending && c.writerClosed
    ensures Enabled(c, ReturnStep(id)) && id !in Next(c, ReturnStep(id)).pending
    ensures Next(c, ReturnStep(id)).pending.Keys == c.pending.Keys - {id}
  {
  }

  lemma CallerPending(c: Client, s: Step, id: int)
    requires Enabled(c, s) && !s.LineStep?
    ensures id in c.pending && s != ReturnStep(id) ==> id in Next(c, s).pending
    ensures id !in c.pending && id <= c.requestId ==> id !in Next(c, s).pending
  {
  }

  /** A completed future keeps its outcome: no future is resolved twice. */
  ghost predicate KeepsSettled(c: Client, c': Client) {
    && (forall id :: id in c.pending && id in c'.pending && !c.pending[id].Pending? ==> c'.pending[id] == c.pending[id])
    && (forall t :: t in c.received && !c.received[t].Pending? ==> t in c'.received && c'.received[t] == c.received[t])
    && (forall id :: id in c.installed && !c.installed[id].Pending? ==> id in c'.installed && c'.installed[id] == c.installed[id])
    && (forall id :: id in c.changed && !c.changed[id].Pending? ==> id in c'.changed && c'.changed[id] == c.changed[id])
  }

  lemma EventKeepsSettled(c: Client, d: map<string, Json>)
    requires Inv(c) && c.reader.Running? && IsEvent(d)
    ensures KeepsSettled(c, Dispatch(c, c.handlers, d))
  {
    var c' := Dispatch(c, c.handlers, d);
    PassStart(c);
    DispatchFrame(c, c.handlers, d);
    forall t | t in c.received && !c.received[t].Pending?
      ensures t in c'.received && c'.received[t] == c.received[t]
    {
      DispatchReceivedFrame(c, c.handlers, d, t);
    }
    forall id | id in c.installed && !c.installed[id].Pending?
      ensures id in c'.installed && c'.installed[id] == c.installed[id]
    {
      if Observer(id) in c.handlers && IsChangeOf(d, id) {
        DispatchObserverChanges(c, c.handlers, d, id);
      } else {
        DispatchObservationFrame(c, c.handlers, d, id);
      }
    }
    forall id | id in c.changed && !c.changed[id].Pending?
      ensures id in c'.changed && c'.changed[id] == c.changed[id]
    {
      DispatchObservationFrame(c, c.handlers, d, id);
    }
  }

  lemma ReadLineKeepsSettled(c: Client, line: Line)
    requires Inv(c) && c.reader.Running?
    ensures KeepsSettled(c, ReadLine(c, line))
  {
    if line.Decoded? && line.value.JObj? && IsEvent(line.value.fields) {
      EventKeepsSettled(c, line.value.fields);
    }
  }

  /** The caller steps only ever add fresh futures or drop a request slot. */
  lemma CallerKeepsSettled(c: Client, s: Step)
    requires Enabled(c, s) && !s.LineStep?
    requires c.requestId + 1 !in c.pending && c.waiters !in c.received
    requires c.observeId + 1 !in c.installed && c.observeId + 1 !in c.changed
    ensures KeepsSettled(c, Next(c, s))
  {
  }

  lemma NextKeepsSettled(c: Client, s: Step)
    requires Inv(c) && Enabled(c, s)
    ensures KeepsSettled(c, Next(c, s))
  {
    if s.LineStep? {
      ReadLineKeepsSettled(c, s.line);
    } else {
      assert c.observeId + 1 !in c.first;
      CallerKeepsSettled(c, s);
    }
  }
}

=== FILE: ipc_state.dfy ===
/**
  The bookkeeping of the mpv IPC client (class `Mpv` in a.py) as a value and
  its atomic transitions.  Under asyncio's single-threaded scheduling each
  transition below runs without interruption:

    - Issue           the synchronous part of `command`: allocate the next
                      request id, register its pending slot, write the line;
    - FinishCommand   the `command` coroutine leaving: its `finally` deletes
                      the slot, either after `await done` returned with the
                      slot resolved, or, once the writer is closed, when
                      `drain()` raised with the slot still pending;
    - Register / Unregister   the `event_handler` context manager;
    - ObserveStart    the synchronous part of `property_changed`;
    - WaitEvent       `event_received`;
    - StartSpawned    the `unobserve_property` task created by an observation
                      handler starting to run;
    - ReadLine        one iteration of the `_read_lines` loop.

  Futures handed out to callers (the per-request `done`, and the
  event-derived `installed`, `changed`, `received`) are values in maps keyed
  by the identity that owns them.
 */
module IpcState {
  import opened Wrappers
  import opened JsonValue

  /** A single-assignment asyncio future. */
  datatype Future = Pending | Done(value: Json) | Failed(error: Json) | Cancelled

  /** `Future.cancel()`: cancels a pending future; a completed one is left as is. */
  function Cancel(f: Future): (g: Future)
    ensures f.Pending? ==> g.Cancelled?
    ensures !f.Pending? ==> g == f
  {
    if f.Pending? then Cancelled else f
  }

  /** A registered event handler.  `Custom(fn)` is a callable given to
      `event_handler` (fn names the callable, so registering the same callable
      twice gives two equal entries, as with Python's `list.remove`);
      `Waiter` is the closure of one `event_received` call; `Observer` the
      closure of one `property_changed` call. */
  datatype Handler = Custom(fn: nat) | Waiter(token: nat, name: string) | Observer(obsId: nat)

  /** An outbound command envelope; `async` is always true. */
  datatype Request = Request(args: seq<Json>, requestId: nat)

  /** The exception that ends the reader task. */
  datatype Crash =
    | DecodeError              // json.loads rejected the line
    | NotAnObject              // the decoded value has no `.get`
    | MissingKey(key: Json)    // KeyError
    | Unhashable               // TypeError: a list or object used as a dict key
    | InvalidState             // set_result on a future that is already done
    | NotRegistered            // list.remove of a handler that is not in the list

  datatype Reader = Running | Stopped | Crashed(error: Crash)

  /** One inbound line: end of stream (`b''`), a line json.loads rejects, or a decoded value. */
  datatype Line = EndOfStream | Garbled | Decoded(value: Json)

  /** A handler invocation, recorded for stating the dispatch discipline. */
  datatype Call = Call(handler: Handler, event: map<string, Json>)

  datatype Client = Client(
    requestId: nat,                 // last request id handed out
    observeId: nat,                 // last observation id handed out
    pending: map<int, Future>,      // pending_requests
    handlers: seq<Handler>,         // event_handlers, in registration order
    first: map<nat, bool>,          // the `first` cell of each observation handler
    installed: map<nat, Future>,    // per observation id
    changed: map<nat, Future>,      // per observation id
    received: map<nat, Future>,     // per event_received call
    waiters: nat,                   // event_received calls so far
    spawned: seq<seq<Json>>,        // commands of tasks created but not yet started
    sent: seq<Request>,             // command lines written, in order
    writerClosed: bool,
    reader: Reader,
    calls: seq<Call>)               // every handler invocation so far

  /** The counters and tables as `Mpv.create` initialises them. */
  function Initial(): Client {
    Client(0, 0, map[], [], map[], map[], map[], map[], 0, [], [], false, Running, [])
  }

  function Unobserve(id: nat): seq<Json> {
    [JStr("unobserve_property"), JInt(id)]
  }

  /** The position of the first occurrence of `x`. */
  function IndexOf<T(==)>(s: seq<T>, x: T): (i: nat)
    requires x in s
    ensures i < |s| && s[i] == x && x !in s[..i]
  {
    if s[0] == x then 0
    else
      var i := 1 + IndexOf(s[1..], x);
      assert s[..i] == [s[0]] + s[1..][..i - 1];
      i
  }

  /** `list.remove`: drops the first occurrence of `x`, if any. */
  function RemoveFirst<T(==)>(s: seq<T>, x: T): (r: seq<T>)
    ensures x !in s ==> r == s
    ensures x in s ==> |r| == |s| - 1 && multiset(r) == multiset(s) - multiset{x}
  {
    if x in s then
      var i := IndexOf(s, x);
      assert s == s[..i] + [x] + s[i + 1..];
      s[..i] + s[i + 1..]
    else s
  }

  /** The part of the state only callers and responses change. */
  datatype RequestSide = RequestSide(requestId: nat, pending: map<int, Future>, sent: seq<Request>,
                                     observeId: nat, writerClosed: bool)

  function RequestSideOf(c: Client): RequestSide {
    RequestSide(c.requestId, c.pending, c.sent, c.observeId, c.writerClosed)
  }

  function Fail(c: Client, e: Crash): Client {
    c.(reader := Crashed(e))
  }

  // ---------------------------------------------------------------- caller steps

  /** `command(*args)` up to the point where it awaits its slot. */
  function Issue(c: Client, args: seq<Json>): Client {
    var id := c.requestId + 1;
    c.(requestId := id, pending := c.pending[id := Pending], sent := c.sent + [Request(args, id)])
  }

  /** The `finally: del self.pending_requests[request_id]` of `command`, run
      after `await done` or when `drain()` raises on a closed writer. */
  function FinishCommand(c: Client, id: int): Client
    requires id in c.pending
  {
    c.(pending := c.pending - {id})
  }

  /** Entering `with event_handler(fn)`. */
  function Register(c: Client, fn: nat): Client {
    c.(handlers := c.handlers + [Custom(fn)])
  }

  /** Leaving `with event_handler(fn)`; with no such entry `list.remove`
      raises ValueError to the caller and nothing changes. */
  function Unregister(c: Client, fn: nat): Client {
    c.(handlers := RemoveFirst(c.handlers, Custom(fn)))
  }

  /** `property_changed(name)` up to its first await: a fresh observation id,
      its two futures, its handler, and the `observe_property` command. */
  function ObserveStart(c: Client, name: string): Client {
    Issue(ObserveRegister(c), [JStr("observe_property"), JInt(c.observeId + 1), JStr(name)])
  }

  /** The part of `property_changed` before its command is issued. */
  function ObserveRegister(c: Client): Client {
    var id := c.observeId + 1;
    c.(observeId := id,
       first := c.first[id := true],
       installed := c.installed[id := Pending],
       changed := c.changed[id := Pending],
       handlers := c.handlers + [Observer(id)])
  }

  /** `event_received(name)`: a fresh future and a one-shot handler. */
  function WaitEvent(c: Client, name: string): Client {
    var t := c.waiters;
    c.(waiters := t + 1, received := c.received[t := Pending], handlers := c.handlers + [Waiter(t, name)])
  }

  /** The oldest task created by `loop.create_task(self.command(...))` starts. */
  function StartSpawned(c: Client): Client
    requires c.spawned != []
  {
    Issue(c.(spawned := c.spawned[1..]), c.spawned[0])
  }

  /** `writer.close()` from `Mpv.close`. */
  function Close(c: Client): Client {
    c.(writerClosed := true)
  }

  // ---------------------------------------------------------------- the reader

  /** The walrus test `if event := data.get('event')`. */
  predicate IsEvent(data: map<string, Json>) {
    "event" in data && Truthy(data["event"])
  }

  /** `for done in pending_requests.values(): done.cancel()`: every pending
      slot is cancelled and every completed one keeps its outcome. */
  function CancelAll(pending: map<int, Future>): (r: map<int, Future>)
    ensures r.Keys == pending.Keys
    ensures forall k :: k in pending && pending[k].Pending? ==> r[k] == Cancelled
    ensures forall k :: k in pending && !pending[k].Pending? ==> r[k] == pending[k]
  {
    map k | k in pending :: Cancel(pending[k])
  }

  /** One iteration of `_read_lines`. */
  function ReadLine(c: Client, line: Line): Client
    requires c.reader.Running?
  {
    match line
    case EndOfStream => c.(writerClosed := true, reader := Stopped, pending := CancelAll(c.pending))
    case Garbled => Fail(c, DecodeError)
    case Decoded(j) =>
      if !j.JObj? then Fail(c, NotAnObject)
      else if IsEvent(j.fields) then Dispatch(c, c.handlers, j.fields)
      else Respond(c, j.fields)
  }

  /** The `_read_lines` loop over the lines the socket delivers, until the
      stream ends or a line raises. */
  function ReadLines(c: Client, lines: seq<Line>): Client
    decreases |lines|
  {
    if lines == [] || !c.reader.Running? then c
    else ReadLines(ReadLine(c, lines[0]), lines[1..])
  }

  /** The response branch: look the slot up, then resolve or fail it. */
  function Respond(c: Client, data: map<string, Json>): (r: Client)
    ensures r == c.(pending := r.pending, reader := r.reader)
    ensures r.pending.Keys == c.pending.Keys
    ensures forall id :: id in c.pending && !c.pending[id].Pending? ==> r.pending[id] == c.pending[id]
    ensures r.reader == c.reader || r.reader.Crashed?
  {
    if "request_id" !in data then Fail(c, MissingKey(JStr("request_id")))
    else
      var key := data["request_id"];
      if key.JList? || key.JObj? then Fail(c, Unhashable)
      else if IntKey(key).None? || IntKey(key).value !in c.pending then Fail(c, MissingKey(key))
      else
        var id := IntKey(key).value;
        if "error" !in data then Fail(c, MissingKey(JStr("error")))
        else if !c.pending[id].Pending? then Fail(c, InvalidState)
        else if data["error"] == JStr("success") then c.(pending := c.pending[id := Done(Get(data, "data"))])
        else c.(pending := c.pending[id := Failed(data["error"])])
  }

  /** The event branch: every handler of the snapshot, in order, until one raises. */
  function Dispatch(c: Client, snapshot: seq<Handler>, data: map<string, Json>): Client
    requires "event" in data
    decreases |snapshot|
  {
    if snapshot == [] || !c.reader.Running? then c
    else Dispatch(CallHandler(c, snapshot[0], data), snapshot[1..], data)
  }

  /** Invoking one handler on an event: it is recorded, and it never
      touches the request side or the `event_received` counter. */
  function CallHandler(c: Client, h: Handler, data: map<string, Json>): (r: Client)
    requires "event" in data
    ensures r.calls == c.calls + [Call(h, data)]
    ensures RequestSideOf(r) == RequestSideOf(c) && r.waiters == c.waiters
  {
    var c1 := c.(calls := c.calls + [Call(h, data)]);
    match h
    case Custom(_) => c1
    case Waiter(t, name) => CallWaiter(c1, t, name, data)
    case Observer(id) => CallObserver(c1, id, data)
  }

  /** The handler of `event_received(name)`: it touches only the handler
      list (removing itself), its own future and the reader (on a raise). */
  function CallWaiter(c: Client, t: nat, name: string, data: map<string, Json>): (r: Client)
    requires "event" in data
    ensures r.calls == c.calls && RequestSideOf(r) == RequestSideOf(c) && r.waiters == c.waiters
    ensures r.first == c.first && r.installed == c.installed && r.changed == c.changed && r.spawned == c.spawned
    ensures r.received == c.received || r.received == c.received[t := Done(JObj(data))]
    ensures data["event"] != JStr(name) ==> r == c
    ensures r.handlers == c.handlers || r.handlers == RemoveFirst(c.handlers, Waiter(t, name))
    ensures r.reader == c.reader || r.reader == Crashed(NotRegistered) || r.reader == Crashed(InvalidState)
  {
    var h := Waiter(t, name);
    if data["event"] != JStr(name) then c
    else if h !in c.handlers then Fail(c, NotRegistered)
    else
      var c1 := c.(handlers := RemoveFirst(c.handlers, h));
      if t in c1.received && c1.received[t].Pending? then c1.(received := c1.received[t := Done(JObj(data))])
      else Fail(c1, InvalidState)
  }

  /** The handler of `property_changed` for observation `id`: it touches
      only the handler list (removing itself, together with queueing its
      `unobserve_property`), its own cells, the spawned commands and the
      reader (on a raise). */
  function CallObserver(c: Client, id: nat, data: map<string, Json>): (r: Client)
    requires "event" in data
    ensures r.calls == c.calls && RequestSideOf(r) == RequestSideOf(c) && r.waiters == c.waiters
    ensures r.received == c.received
    ensures r.spawned == c.spawned || r.spawned == c.spawned + [Unobserve(id)]
    ensures r.first == c.first || r.first == c.first[id := false]
    ensures r.installed == c.installed || r.installed == c.installed[id := Done(JNull)]
    ensures r.changed == c.changed || r.changed == c.changed[id := Done(JObj(data))]
    ensures !("id" in data && IntKey(data["id"]) == Some(id)) ==> r == c || r == Fail(c, MissingKey(JStr("id")))
    ensures r.handlers == c.handlers || r.handlers == RemoveFirst(c.handlers, Observer(id))
    ensures r.handlers != c.handlers ==> r.spawned == c.spawned + [Unobserve(id)] && r.reader == c.reader
    ensures || r.reader == c.reader || r.reader == Crashed(MissingKey(JStr("id")))
            || r.reader == Crashed(NotRegistered) || r.reader == Crashed(InvalidState)
  {
    if data["event"] != JStr("property-change") then c
    else if "id" !in data then Fail(c, MissingKey(JStr("id")))
    else if IntKey(data["id"]) != Some(id) then c
    else if id in c.first && c.first[id] then
      var c1 := c.(first := c.first[id := false]);
      if id in c1.installed && c1.installed[id].Pending? then c1.(installed := c1.installed[id := Done(JNull)])
      else Fail(c1, InvalidState)
    else if !(id in c.changed && c.changed[id].Pending?) then Fail(c, InvalidState)
    else
      var h := Observer(id);
      var c1 := c.(changed := c.changed[id := Done(JObj(data))]);
      if h !in c1.handlers then Fail(c1, NotRegistered)
      else c1.(handlers := RemoveFirst(c1.handlers, h), spawned := c1.spawned + [Unobserve(id)])
  }

  // ---------------------------------------------------------------- invariant

  /** Two handlers that own the same future. */
  predicate SameOwner(a: Handler, b: Handler) {
    || (a.Waiter? && b.Waiter? && a.token == b.token)
    || (a.Observer? && b.Observer? && a.obsId == b.obsId)
  }

  /** No two entries of the handler list own the same future. */
  predicate Owners(hs: seq<Handler>) {
    forall i, j :: 0 <= i < |hs| && 0 <= j < |hs| && SameOwner(hs[i], hs[j]) ==> i == j
  }

  /** What every reachable client state satisfies. */
  ghost predicate Inv(c: Client) {
    // request ids are 1, 2, 3, ... in the order the lines were written
    && |c.sent| == c.requestId
    && (forall i :: 0 <= i < |c.sent| ==> c.sent[i].requestId == i + 1)
    && (forall id :: id in c.pending ==> 1 <= id <= c.requestId)
    // observation ids 1 .. observeId each own a `first` cell and two futures
    && (forall id: nat :: id in c.first <==> 1 <= id <= c.observeId)
    && c.installed.Keys == c.first.Keys && c.changed.Keys == c.first.Keys
    && (forall id :: id in c.first ==> (c.first[id] <==> c.installed[id].Pending?))
    && (forall id :: id in c.changed && !c.changed[id].Pending? ==> !c.first[id])
    && (forall id :: id in c.changed ==> (c.changed[id].Pending? <==> Observer(id) in c.handlers))
    // event_received calls 0 .. waiters - 1 each own a future
    && (forall t: nat :: t in c.received <==> t < c.waiters)
    && (forall h :: h in c.handlers && h.Waiter? ==> h.token in c.received && c.received[h.token].Pending?)
    && (forall h :: h in c.handlers && h.Observer? ==> h.obsId in c.changed)
    && Owners(c.handlers)
  }
}

=== FILE: json_value.dfy ===
/**
  Decoded JSON values as the IPC client sees them after `json.loads`, and the
  two pieces of Python semantics the client applies to them: truthiness (the
  walrus test on the `event` field) and equality against an `int` (the
  `data['id'] == id` test and the integer-keyed `pending_requests` lookup).
  Floating-point numbers are not part of this model.
 */
module JsonValue {
  import opened Wrappers

  datatype Json =
    | JNull
    | JBool(b: bool)
    | JInt(i: int)
    | JStr(s: string)
    | JList(items: seq<Json>)
    | JObj(fields: map<string, Json>)

  /** Python truthiness of a decoded JSON value. */
  predicate Truthy(j: Json) {
    match j
    case JNull => false
    case JBool(b) => b
    case JInt(i) => i != 0
    case JStr(s) => s != ""
    case JList(items) => items != []
    case JObj(fields) => fields != map[]
  }

  /** The integer a JSON value is equal to under Python's `==` (and under
      dict-key hashing), if any: `True == 1` and `False == 0`. */
  function IntKey(j: Json): (k: Option<int>)
    ensures k.Some? <==> (j.JInt? || j.JBool?)
    ensures j.JInt? ==> k == Some(j.i)
    ensures j.JBool? ==> k == Some(if j.b then 1 else 0)
  {
    match j
    case JInt(i) => Some(i)
    case JBool(b) => Some(if b then 1 else 0)
    case _ => None
  }

  /** `dict.get(key, None)`: a missing field reads as `null`. */
  function Get(data: map<string, Json>, key: string): (v: Json)
    ensures key in data ==> v == data[key]
    ensures key !in data ==> v == JNull
  {
    if key in data then data[key] else JNull
  }
}

=== FILE: lua2string.dfy ===
/**
  The C fragment TOOLS/lua2string.py writes for a Lua chunk: a struct
  initialiser whose `.start` is the chunk as a string literal (see CString)
  and whose `.len` is the chunk's length in decimal.  The bytes the literal
  stands for are exactly as many as `.len` says, so a parser of the fragment
  gets the chunk back.
 */
module Lua2String {
  import opened Wrappers
  import opened CString

  const Open: string := "{\n    .start = "
  const Sep: string := ",\n    .len = "
  const Close: string := ",\n}\n"

  // ---------------------------------------------------------------- decimal numbers

  predicate IsDecimalDigit(ch: char) {
    '0' <= ch <= '9'
  }

  /** `f"{n}"` for a non-negative integer. */
  function Decimal(n: nat): (r: string)
    ensures 1 <= |r| && forall i :: 0 <= i < |r| ==> IsDecimalDigit(r[i])
    decreases n
  {
    var last := ('0' as int + n % 10) as char;
    if n < 10 then [last] else Decimal(n / 10) + [last]
  }

  function DecimalValue(t: string): nat
    requires forall i :: 0 <= i < |t| ==> IsDecimalDigit(t[i])
    decreases |t|
  {
    if t == [] then 0
    else
      var last := t[|t| - 1];
      assert IsDecimalDigit(last);
      10 * DecimalValue(t[..|t| - 1]) + (last as int - '0' as int)
  }

  lemma {:induction false} DecimalRoundTrip(n: nat)
    ensures DecimalValue(Decimal(n)) == n
    decreases n
  {
    if n >= 10 {
      DecimalRoundTrip(n / 10);
      var r := Decimal(n);
      assert r[..|r| - 1] == Decimal(n / 10);
    }
  }

  // ---------------------------------------------------------------- the fragment

  /** The text written to the output file for `chunk`. */
  function Fragment(chunk: seq<Byte>): (r: string)
    ensures |r| > |Open| + |Close| && r[..|Open|] == Open && r[|r| - |Close|..] == Close
  {
    Open + CLiteral(chunk) + Sep + Decimal(|chunk|) + Close
  }

  /** Writing the fragment, with the literal built by `cstr`. */
  method WriteFragment(chunk: seq<Byte>) returns (text: string)
    ensures text == Fragment(chunk)
  {
    var literal := Cstr(chunk);
    text := Open + literal + Sep + Decimal(|chunk|) + Close;
  }

  // ---------------------------------------------------------------- reading the fragment back

  /** The index of the first double quote in `r`, or `|r|` if there is none. */
  function QuoteAt(r: string): (k: nat)
    ensures k <= |r| && (k < |r| ==> r[k] == '"')
    ensures forall i :: 0 <= i < k ==> r[i] != '"'
    decreases |r|
  {
    if r == [] || r[0] == '"' then 0 else 1 + QuoteAt(r[1..])
  }

  predicate AllDecimal(t: string) {
    forall i :: 0 <= i < |t| ==> IsDecimalDigit(t[i])
  }

  /** A C reader of the fragment: the literal after `.start = ` up to its
      closing quote, decoded, and the number after `.len = `, which must
      count the decoded bytes. */
  function ParseFragment(t: string): Option<seq<Byte>> {
    if |t| <= |Open| || t[..|Open|] != Open || t[|Open|] != '"' then None
    else ParseFields(t[|Open| + 1..])
  }

  /** What follows the opening quote of `.start`. */
  function ParseFields(r: string): Option<seq<Byte>> {
    var q := QuoteAt(r);
    if q == |r| then None
    else
      var bytes := Decode(r[..q]);
      var n := ParseLen(r[q + 1..]);
      if bytes.Some? && n.Some? && |bytes.value| == n.value then bytes else None
  }

  /** What follows the closing quote of `.start`: the `.len` field. */
  function ParseLen(after: string): Option<nat> {
    if |after| < |Sep| + |Close| || after[..|Sep|] != Sep
       || after[|after| - |Close|..] != Close then None
    else
      var digits := after[|Sep|..|after| - |Close|];
      if digits == [] || !AllDecimal(digits) then None else Some(DecimalValue(digits))
  }

  lemma QuoteAtFirst(x: string, y: string)
    requires '"' !in x && y != [] && y[0] == '"'
    ensures QuoteAt(x + y) == |x|
  {
    assert (x + y)[|x|] == '"';
  }

  lemma ParseLenOf(n: nat)
    ensures ParseLen(Sep + Decimal(n) + Close) == Some(n)
  {
    var digits := Decimal(n);
    var after := Sep + digits + Close;
    assert after[..|Sep|] == Sep;
    assert after[|after| - |Close|..] == Close;
    assert after[|Sep|..|after| - |Close|] == digits;
    DecimalRoundTrip(n);
  }

  lemma ParseFieldsAt(r: string, k: nat, bytes: seq<Byte>)
    requires k < |r| && QuoteAt(r) == k
    requires Decode(r[..k]) == Some(bytes) && ParseLen(r[k + 1..]) == Some(|bytes|)
    ensures ParseFields(r) == Some(bytes)
  {
  }

  lemma ParseFieldsOf(body: string, bytes: seq<Byte>)
    requires '"' !in body && Decode(body) == Some(bytes)
    ensures ParseFields(body + ("\"" + (Sep + Decimal(|bytes|) + Close))) == Some(bytes)
  {
    var rest := Sep + Decimal(|bytes|) + Close;
    var r := body + ("\"" + rest);
    QuoteAtFirst(body, "\"" + rest);
    assert r[..|body|] == body;
    assert r[|body| + 1..] == rest;
    ParseLenOf(|bytes|);
    ParseFieldsAt(r, |body|, bytes);
  }

  /** Round trip: the fragment reads back as the chunk, and its `.len` is the
      number of bytes its `.start` literal stands for. */
  lemma FragmentRoundTrip(chunk: seq<Byte>)
    ensures ParseFragment(Fragment(chunk)) == Some(chunk)
  {
    var r := Interior(chunk) + ("\"" + (Sep + Decimal(|chunk|) + Close));
    var t := Fragment(chunk);
    assert t == Open + ("\"" + r);
    assert t[..|Open|] == Open;
    assert t[|Open|] == '"';
    assert t[|Open| + 1..] == r;
    assert ParseFragment(t) == ParseFields(r);
    InteriorAlphabet(chunk);
    DecodeInterior(chunk);
    ParseFieldsOf(Interior(chunk), chunk);
  }
}

=== FILE: mpv_client.dfy ===
/**
  Class `Mpv` of a.py with its bookkeeping as mutable fields.  Every method
  is proved to move `Model()` exactly as the matching function of `IpcState`
  does, so that everything proved there about the transitions holds of the
  object.  `Valid()` is the client invariant.  The step methods, each one
  atomic transition of the client (`Create`, `Command`, `SetProperty`,
  `FinishCommand`, `EventHandlerEnter`, `EventHandlerExit`,
  `PropertyChanged`, `EventReceived`, `StartSpawned`, `Close`, `ReadLine`,
  `ReadLines`), keep it.  The helpers they call (`AddObserver`,
  `CancelPending`, `Respond`, `Dispatch`, `CallHandler`, `WaiterHandler`,
  `ObserverHandler`, `ObserverFirst`, `ObserverSecond`, `ObserverRetire`)
  are each part of a transition and are proved only to match their
  `IpcState` functions.
 */
module MpvClient {
  import opened Wrappers
  import opened JsonValue
  import opened IpcState
  import opened IpcProperties

  class Mpv {
    var requestId: nat
    var observePropertyId: nat
    var pendingRequests: map<int, Future>
    var eventHandlers: seq<Handler>
    // state captured by the closures of `property_changed` and `event_received`
    var first: map<nat, bool>
    var installed: map<nat, Future>
    var changed: map<nat, Future>
    var received: map<nat, Future>
    var waiters: nat
    // `unobserve_property` tasks created by observation handlers, not yet started
    var spawned: seq<seq<Json>>
    // the writer side of the socket
    var sent: seq<Request>
    var writerClosed: bool
    // the `_read_lines` task
    var reader: Reader
    ghost var calls: seq<Call>

    ghost function Model(): Client
      reads this
    {
      Client(requestId, observePropertyId, pendingRequests, eventHandlers, first, installed, changed,
             received, waiters, spawned, sent, writerClosed, reader, calls)
    }

    ghost predicate Valid()
      reads this
    {
      Inv(Model())
    }

    /** `Mpv.create`: counters at zero, no pending request, no handler, the
        reader task started. */
    constructor Create()
      ensures Model() == Initial() && Valid()
    {
      requestId := 0;
      observePropertyId := 0;
      pendingRequests := map[];
      eventHandlers := [];
      first, installed, changed, received := map[], map[], map[], map[];
      waiters := 0;
      spawned := [];
      sent := [];
      writerClosed := false;
      reader := Running;
      calls := [];
      InitialInv();
    }

    /** `command(*args)` up to `await done`: a fresh request id, its pending
        slot, and the request line written. */
    method Command(args: seq<Json>) returns (id: nat)
      requires Valid()
      modifies this
      ensures Model() == Issue(old(Model()), args) && Valid()
      ensures id == old(requestId) + 1 && id !in old(pendingRequests)
      ensures pendingRequests[id] == Pending && sent[|sent| - 1] == Request(args, id)
    {
      ghost var c0 := Model();
      IssueFresh(c0, args);
      IssueInv(c0, args);
      requestId := requestId + 1;
      id := requestId;
      pendingRequests := pendingRequests[id := Pending];
      sent := sent + [Request(args, id)];
    }

    /** `set_property(name, value)`: the `set_property` command. */
    method SetProperty(name: string, value: Json) returns (id: nat)
      requires Valid()
      modifies this
      ensures Model() == Issue(old(Model()), [JStr("set_property"), JStr(name), value]) && Valid()
    {
      id := Command([JStr("set_property"), JStr(name), value]);
    }

    /** `command` leaving: after its future completed, `return await done`
        yields the outcome; with the writer closed, `drain()` raises while
        the future is still pending (the outcome is then `Pending`).  Either
        way `finally` deletes the slot. */
    method FinishCommand(id: int) returns (outcome: Future)
      requires Valid() && id in pendingRequests && (!pendingRequests[id].Pending? || writerClosed)
      modifies this
      ensures Model() == IpcState.FinishCommand(old(Model()), id) && Valid()
      ensures outcome == old(pendingRequests[id]) && id !in pendingRequests
    {
      FinishCommandInv(Model(), id);
      outcome := pendingRequests[id];
      pendingRequests := pendingRequests - {id};
    }

    /** Entering `with event_handler(fn)`. */
    method EventHandlerEnter(fn: nat)
      requires Valid()
      modifies this
      ensures Model() == Register(old(Model()), fn) && Valid()
    {
      RegisterInv(Model(), fn);
      eventHandlers := eventHandlers + [Custom(fn)];
    }

    /** Leaving `with event_handler(fn)`: `list.remove`, which raises when
        the entry is gone (`removed` is false then). */
    method EventHandlerExit(fn: nat) returns (removed: bool)
      requires Valid()
      modifies this
      ensures Model() == Unregister(old(Model()), fn) && Valid()
      ensures removed <==> Custom(fn) in old(eventHandlers)
    {
      UnregisterInv(Model(), fn);
      removed := Custom(fn) in eventHandlers;
      eventHandlers := RemoveFirst(eventHandlers, Custom(fn));
    }

    /** `property_changed(name)` up to `await self.command(...)`: a fresh
        observation id, its handler, and the `observe_property` command. */
    method PropertyChanged(name: string) returns (obsId: nat, reqId: nat)
      requires Valid()
      modifies this
      ensures Model() == ObserveStart(old(Model()), name) && Valid()
      ensures obsId == old(observePropertyId) + 1 && reqId == old(requestId) + 1
    {
      ObserveRegisterInv(Model());
      obsId := AddObserver();
      reqId := Command([JStr("observe_property"), JInt(obsId), JStr(name)]);
    }

    /** The part of `property_changed` before its command: the id, the
        futures and the `first` cell of the closure, and its registration. */
    method AddObserver() returns (obsId: nat)
      modifies this
      ensures Model() == ObserveRegister(old(Model()))
      ensures obsId == old(observePropertyId) + 1
    {
      obsId := observePropertyId + 1;
      observePropertyId := obsId;
      installed := installed[obsId := Pending];
      changed := changed[obsId := Pending];
      first := first[obsId := true];
      eventHandlers := eventHandlers + [Observer(obsId)];
    }

    /** `event_received(name)`: a fresh future and its one-shot handler. */
    method EventReceived(name: string) returns (token: nat)
      requires Valid()
      modifies this
      ensures Model() == WaitEvent(old(Model()), name) && Valid()
      ensures token !in old(received) && token in received && received[token] == Pending
    {
      WaitEventInv(Model(), name);
      token := waiters;
      received := received[token := Pending];
      waiters := waiters + 1;
      eventHandlers := eventHandlers + [Waiter(token, name)];
    }

    /** The oldest task created by an observation handler starts: its
        `unobserve_property` command is issued. */
    method StartSpawned() returns (id: nat)
      requires Valid() && spawned != []
      modifies this
      ensures Model() == IpcState.StartSpawned(old(Model())) && Valid()
    {
      StartSpawnedInv(Model());
      var args := spawned[0];
      spawned := spawned[1..];
      id := Command(args);
    }

    /** `close()`. */
    method Close()
      requires Valid()
      modifies this
      ensures Model() == IpcState.Close(old(Model())) && Valid()
    {
      CloseInv(Model());
      writerClosed := true;
    }

    /** One iteration of the `_read_lines` loop. */
    method ReadLine(line: Line)
      requires Valid() && reader.Running?
      modifies this
      ensures Model() == IpcState.ReadLine(old(Model()), line) && Valid()
    {
      ReadLineInv(Model(), line);
      match line
      case EndOfStream =>
        writerClosed := true;
        CancelPending();
        reader := Stopped;
      case Garbled =>
        reader := Crashed(DecodeError);
      case Decoded(j) =>
        if !j.JObj? {
          reader := Crashed(NotAnObject);
        } else if IsEvent(j.fields) {
          Dispatch(j.fields);
        } else {
          Respond(j.fields);
        }
    }

    /** The `_read_lines` task, fed the lines the socket delivers: it
        stops at the end of the stream or at the first line that raises. */
    method ReadLines(lines: seq<Line>)
      requires Valid()
      modifies this
      ensures Model() == IpcState.ReadLines(old(Model()), lines) && Valid()
    {
      var i := 0;
      while i < |lines| && reader.Running?
        invariant 0 <= i <= |lines| && Valid()
        invariant IpcState.ReadLines(old(Model()), lines) == IpcState.ReadLines(Model(), lines[i..])
      {
        assert lines[i..][1..] == lines[i + 1..];
        ReadLine(lines[i]);
        i := i + 1;
      }
    }

    /** `for done in self.pending_requests.values(): done.cancel()`.  The
        dictionary iterates in insertion order, which is ascending request
        id; every id it holds lies in 1 .. requestId. */
    method CancelPending()
      requires forall k :: k in pendingRequests ==> 1 <= k <= requestId
      modifies this
      ensures Model() == old(Model()).(pending := CancelAll(old(pendingRequests)))
    {
      ghost var before := pendingRequests;
      for k := 1 to requestId + 1
        invariant pendingRequests.Keys == before.Keys
        invariant forall j :: j in before ==> pendingRequests[j] == if j < k then Cancel(before[j]) else before[j]
        invariant Model() == old(Model()).(pending := pendingRequests)
      {
        if k in pendingRequests {
          pendingRequests := pendingRequests[k := Cancel(pendingRequests[k])];
        }
      }
      assert pendingRequests == CancelAll(before);
    }

    /** The response branch: look the slot up by `request_id`, then resolve
        it with the data or fail it with the error. */
    method Respond(data: map<string, Json>)
      modifies this
      ensures Model() == IpcState.Respond(old(Model()), data)
    {
      if "request_id" !in data {
        reader := Crashed(MissingKey(JStr("request_id")));
        return;
      }
      var key := data["request_id"];
      if key.JList? || key.JObj? {
        reader := Crashed(Unhashable);
        return;
      }
      var id := IntKey(key);
      if id.None? || id.value !in pendingRequests {
        reader := Crashed(MissingKey(key));
        return;
      }
      if "error" !in data {
        reader := Crashed(MissingKey(JStr("error")));
      } else if !pendingRequests[id.value].Pending? {
        reader := Crashed(InvalidState);
      } else if data["error"] == JStr("success") {
        pendingRequests := pendingRequests[id.value := Done(Get(data, "data"))];
      } else {
        pendingRequests := pendingRequests[id.value := Failed(data["error"])];
      }
    }

    /** The event branch: `for handler in list(self.event_handlers):
        handler(data)`, ended early by the first handler that raises. */
    method Dispatch(data: map<string, Json>)
      requires "event" in data
      modifies this
      ensures Model() == IpcState.Dispatch(old(Model()), old(eventHandlers), data)
    {
      var snapshot := eventHandlers;
      var i := 0;
      while i < |snapshot| && reader.Running?
        invariant 0 <= i <= |snapshot|
        invariant IpcState.Dispatch(old(Model()), snapshot, data) == IpcState.Dispatch(Model(), snapshot[i..], data)
        decreases |snapshot| - i
      {
        assert snapshot[i..][1..] == snapshot[i + 1..];
        CallHandler(snapshot[i], data);
        i := i + 1;
      }
    }

    /** Invoking one handler. */
    method CallHandler(h: Handler, data: map<string, Json>)
      requires "event" in data
      modifies this
      ensures Model() == IpcState.CallHandler(old(Model()), h, data)
    {
      calls := calls + [Call(h, data)];
      match h
      case Custom(_) =>
      case Waiter(t, name) => WaiterHandler(t, name, data);
      case Observer(id) => ObserverHandler(id, data);
    }

    /** The closure of `event_received(name)`. */
    method WaiterHandler(t: nat, name: string, data: map<string, Json>)
      requires "event" in data
      modifies this
      ensures Model() == CallWaiter(old(Model()), t, name, data)
    {
      if data["event"] != JStr(name) {
        return;
      }
      var h := Waiter(t, name);
      if h !in eventHandlers {
        reader := Crashed(NotRegistered);
        return;
      }
      eventHandlers := RemoveFirst(eventHandlers, h);
      if t in received && received[t].Pending? {
        received := received[t := Done(JObj(data))];
      } else {
        reader := Crashed(InvalidState);
      }
    }

    /** The closure of `property_changed` for observation `id`. */
    method ObserverHandler(id: nat, data: map<string, Json>)
      requires "event" in data
      modifies this
      ensures Model() == CallObserver(old(Model()), id, data)
    {
      if data["event"] != JStr("property-change") {
        return;
      }
      if "id" !in data {
        reader := Crashed(MissingKey(JStr("id")));
        return;
      }
      if IntKey(data["id"]) != Some(id) {
        return;
      }
      if id in first && first[id] {
        ObserverFirst(id, data);
      } else {
        ObserverSecond(id, data);
      }
    }

    /** The first matching property change: `first = False`,
        `installed.set_result(None)`. */
    method ObserverFirst(id: nat, data: map<string, Json>)
      requires "event" in data && data["event"] == JStr("property-change")
      requires "id" in data && IntKey(data["id"]) == Some(id)
      requires id in first && first[id]
      modifies this
      ensures Model() == CallObserver(old(Model()), id, data)
    {
      first := first[id := false];
      if id in installed && installed[id].Pending? {
        installed := installed[id := Done(JNull)];
      } else {
        reader := Crashed(InvalidState);
      }
    }

    /** A later matching property change. */
    method ObserverSecond(id: nat, data: map<string, Json>)
      requires "event" in data && data["event"] == JStr("property-change")
      requires "id" in data && IntKey(data["id"]) == Some(id)
      requires !(id in first && first[id])
      modifies this
      ensures Model() == CallObserver(old(Model()), id, data)
    {
      if !(id in changed && changed[id].Pending?) {
        reader := Crashed(InvalidState);
      } else {
        ObserverRetire(id, data);
      }
    }

    /** `changed.set_result(data)`, then the handler removes itself and
        spawns `unobserve_property`. */
    method ObserverRetire(id: nat, data: map<string, Json>)
      requires "event" in data && data["event"] == JStr("property-change")
      requires "id" in data && IntKey(data["id"]) == Some(id)
      requires !(id in first && first[id]) && id in changed && changed[id].Pending?
      modifies this
      ensures Model() == CallObserver(old(Model()), id, data)
    {
      changed := changed[id := Done(JObj(data))];
      var h := Observer(id);
      if h !in eventHandlers {
        reader := Crashed(NotRegistered);
        return;
      }
      eventHandlers := RemoveFirst(eventHandlers, h);
      spawned := spawned + [Unobserve(id)];
    }
  }
}

=== FILE: wrappers.dfy ===
/** The optional value shared by the JSON model and the C-literal decoder. */
module Wrappers {
  datatype Option<T> = None | Some(value: T)
}
